=== FILE: README.md ===
# Fretboard diagrams: notation parser and layout engine in Dafny

This project models the two pure cores of a small web application that draws
guitar fretboard diagrams.

- **The notation parser and validator** (`parseAndValidateFretboard`). It takes a title and, per
  string, a label and a free-text row such as `3,1 5,2 open`. It returns either
  the first error or a fretboard: the title cut to 32 characters, and for each
  string its label cut to 3 characters with a list of `(fret, finger)` pairs.
  Each token is `fret[,finger]`. The fret must be one or two digits with a value
  from 1 to 99, and no fret may repeat on one string. The finger is everything
  after the first comma, cut to two characters. The token `open`, in any case,
  is skipped. After all rows parse, the frets of all strings together must lie
  within 9 of each other.
- **The last-valid-result cache** of the validation hook (`validateAndLog`). An
  error clears the stored result. A result equal to the stored one is skipped.
  A new result is logged and stored.
- **The layout engine** (`getFretWidths` and the geometry of `renderFretboard`).
  It is a pure function from a diagram, the player's handedness and the
  viewpoint to a drawing plan. The plan holds the canvas extent and the drawing
  primitives (rectangles, lines, circles, texts) in the order the canvas calls
  them.
  - The fret window runs from the lowest note. It is at least five frets wide,
    and frets 1 to 5 when nothing is fretted.
  - Slot widths form a geometric progression: 100, then times 0.94 each slot.
  - Slot positions are prefix sums of the widths.
  - Handedness mirrors fret numbering and slot mapping, and moves the nut,
    labels and glyphs to the other side.
  - Viewpoint reverses the vertical string order. A string's thickness follows
    its original index.
  - For each string, an open `O` wins over a muted `X`, which wins over the
    fretted markers.

Modules:

| file | module | contents |
|---|---|---|
| results.dfy | `Results` | `Option` and `Result` |
| seqmath.dfy | `SeqMath` | `Min`, `Max`, pairwise spread, prefix sums, `Reverse`, `Flatten` |
| text.dfy | `Text` | whitespace, `trim().split(/\s+/)`, `split(',')`/`join(',')`, ASCII lower-casing, digit strings, `toString()` |
| parse.dfy | `Parse` | the parser: tokens, rows, span check |
| parse_properties.dfy | `ParseProperties` | a declarative reading of the notation and the proof that the parser implements it |
| parse_examples.dfy | `ParseExamples` | concrete inputs whose outcome the code fixes |
| validation.dfy | `Validation` | the last-valid-result cache |
| geometry.dfy | `Geometry` | fret window, widths, slots, handedness mapping |
| layout.dfy | `Layout` | the drawing plan |
| layout_properties.dfy | `LayoutProperties` | placement and mirroring properties of the plan |

Some behaviours of the code worth noting:

- The row text `open` does not mark an open string. It is a token that is skipped,
  so it yields a string with no pairs. It may also appear among fret tokens.
- `x` has no muted meaning. It fails as an invalid fret.
- `100` fails the one-or-two-digit shape check. It never reaches the 1–99 range check.
- The parser never sets the open or muted flags. `Layout.FromParsed` sets both
  false, so only diagrams built by other callers of the renderer show the `O`
  and `X` glyphs.
- The primitives come in the code's order:
  1. the backdrop and the board;
  2. the first vertical line, then the wires;
  3. for each display row, its string line followed by its label;
  4. the fret numbers;
  5. for each display row, its open/muted glyph or its markers;
  6. the title.
- Slot `i` has width `w[i]` in both handednesses. The left-handed wire loop lands
  exactly on the right-handed wire positions (`Geometry.StepLeftLandsOnSlotEdge`).
  So the same fret's marker is not at mirrored positions
  (`x_right + x_left = board width` does not hold in general). Instead,
  left-handed slot `i` carries the number of right-handed slot `n-1-i`
  (`LayoutProperties.FretNumbersMirror`).

Lengths are Dafny `real`s standing in for JavaScript doubles.

## Model

| member | source | states |
|---|---|---|
| Parse.ParseToken | parseFretboard.js:27-48 | `open` in any case is skipped, and nothing else is. The invalid-fret error arises exactly when the part before the first comma is not one or two digits. A well-shaped part of value 0 gives the out-of-range error carrying that part, and that error carries nothing else. A well-shaped, nonzero fret already seen on the string gives the duplicate error, carrying that fret. Every other token is a note: its fret is the part's value, and its finger is the text after the first comma, cut to two characters. |
| Parse.FirstCommaSplit | parseFretboard.js:29-30 | The fret part has no comma. A token without a comma is all fret part, with an empty finger. Otherwise the token is fret part, a comma, then finger text, so later commas stay in the finger. |
| Parse.FretShapeValue | parseFretboard.js:32-37 | A one- or two-digit fret is at most 99, and it is zero only for `0` or `00`. So the range check can fail only on those two texts. |
| Parse.ParseTokens | parseFretboard.js:25-49 | Parsing one row only appends to the pairs found so far. It keeps every pair in bounds and every fret distinct. An error carries the string number it was given, is never the span error, and an out-of-range error carries `0` or `00`. That the error is the first failing token's is stated by `ParseProperties.FirstRejection`. |
| Parse.ParseStrings | parseFretboard.js:17-57 | Success gives one string per row. String i carries row i's label cut to three characters, and each string is well formed. An error names a string number within the rows, and an out-of-range error carries `0` or `00`. That it is the first failing row's error is stated by `ParseProperties.ParseStringsFirstError`. |
| Parse.CheckSpan | parseFretboard.js:59-78 | A row error passes through unchanged. Otherwise success means all frets of all strings lie within 9 of each other, and it returns the cut title and the strings. A span error carries max − min, which exceeds 9. |
| Parse.ParseFretboard | parseFretboard.js:8-79 | A success is a valid fretboard: the title has at most 32 characters, every string is well formed, and all frets lie within 9. The title and every label are prefixes of their inputs with length min(input, limit). A span error exceeds 9. Every other error names a string from 1 to n; `ParseProperties.ParseFretboardFirstError` states that it is the first invalid row's. |
| ParseProperties.ParseTokensMatchesNotes | parseFretboard.js:25-49 | A row's tokens parse exactly when every token is `open` or a nonzero one- or two-digit fret, and no fret repeats. The result is then the denoted pairs, one per non-`open` token, in token order. |
| ParseProperties.ParseStringsMatches | parseFretboard.js:17-57 | The rows parse exactly when every row's text is valid. The result is then the denoted strings in row order. |
| ParseProperties.ParseFretboardCharacterization | parseFretboard.js:8-79 | The whole parse succeeds exactly when every row is valid and the frets of all strings are pairwise within 9. It then returns the cut title and the denoted strings. |
| ParseProperties.BlankTextHasNoPairs | parseFretboard.js:20-23 | An empty or whitespace-only row is valid, and its string gets no pairs. |
| ParseProperties.OpenTokenIgnored | parseFretboard.js:28 | An `open` token inserted anywhere in a row changes neither the pairs nor the error. |
| ParseProperties.RepeatedFretRejected | parseFretboard.js:41-44 | Two non-`open` tokens of one row with the same fret part make the whole parse fail. |
| ParseProperties.ParseTokensConcat | parseFretboard.js:25-49 | Parsing two token lists one after the other is parsing the first and, if it succeeds, carrying on with the second from its pairs. An error in the first list is the result. |
| ParseProperties.RejectEndsParse | parseFretboard.js:33-44 | If the tokens before position i parse and token i is rejected, the row's result is exactly token i's error: nothing after it is looked at. |
| ParseProperties.FirstRejection | parseFretboard.js:25-49 | A failing row has a token i such that every token before it parses, and the row's error is the one token i gives against the frets seen so far. |
| ParseProperties.RowParses | parseFretboard.js:20-49 | A row's tokens parse exactly when its text is valid in the declarative reading. |
| ParseProperties.ParseStringsFirstError | parseFretboard.js:17-57 | When the rows fail, the error names some row j: all rows before j parse, and the error is row j's own error. |
| ParseProperties.ParseFretboardFirstError | parseFretboard.js:8-79 | A failing parse gives the span error exactly when every row is valid. Any other error names a string i from 1 to n: every row before i is valid, row i is not, and the error is row i's own. |
| ParseExamples.Accepted | parseFretboard.js:60-78 | Rows that parse, with no frets or frets within 9, give the cut title and those strings. |
| ParseExamples.Rejected | parseFretboard.js:60-72 | Rows that parse with max − min above 9 give exactly the span error carrying that difference. |
| ParseExamples.SpanRejected | parseFretboard.js:60-66 | The span check alone refuses frets more than 9 apart, with their difference. |
| ParseExamples.TokenParts | parseFretboard.js:29-30 | `fret,finger` without further commas splits into exactly those two parts. |
| ParseExamples.TwoFingeredNotes | parseFretboard.js:25-47 | Two `fret,finger` tokens on different frets give two pairs, in input order. |
| ParseExamples.TwoFingeredDuplicate | parseFretboard.js:41-44 | Two `fret,finger` tokens on the same fret give the duplicate error for that string. |
| ParseExamples.TwoNotesInOrder | parseFretboard.js:47-54 | `3,1 5,2` gives the pairs (3, "1") then (5, "2"). |
| ParseExamples.DuplicateOnOneString | parseFretboard.js:41-44 | `3,1 3,2` gives the duplicate-fret-3 error on string 1. |
| ParseExamples.HundredIsInvalidShape | parseFretboard.js:32-35 | `100,1` gives the invalid-fret error for `100`, not the range error. |
| ParseExamples.MutedMarkIsInvalidFret | parseFretboard.js:32-35 | `x` gives the invalid-fret error. |
| ParseExamples.OpenKeywordYieldsNoPairs | parseFretboard.js:28 | `OPEN` gives a string with no pairs and no error. |
| ParseExamples.TwoSingleFretRows | parseFretboard.js:60-66 | Two rows with one fret each are accepted exactly when the frets differ by at most 9. Otherwise they give the span error with that difference. |
| ParseExamples.SpanOfNineAccepted | parseFretboard.js:63 | Frets 1 and 10 on two strings are accepted. |
| ParseExamples.SpanOfTenRejected | parseFretboard.js:63-64 | Frets 1 and 11 on two strings give the span error with difference 10. |
| SeqMath.SpreadIsMaxMinusMin | parseFretboard.js:60-65 | Comparing only max − min with the bound decides whether every two values are within the bound. |
| Text.Tokens | parseFretboard.js:23-25 | Every token is a nonempty run of non-whitespace. There are no tokens exactly when the text is blank. |
| Text.TokensOfJoinedWords | parseFretboard.js:23-25 | Splitting words joined by single spaces gives back exactly those words. |
| Text.Split | parseFretboard.js:29 | There is always at least one part, no part contains the separator, and there is exactly one part when the text has no separator. |
| Text.JoinSplit | parseFretboard.js:29-30 | Joining the parts of a split with the separator gives back the original text. |
| Text.SplitJoin | parseFretboard.js:29-30 | Splitting a join of separator-free parts gives back exactly those parts. |
| Text.NatToString | renderFretboard.js:182 | A fret number's text is a nonempty digit string with no leading zero, whose value is the number. |
| Text.CanonicalIsNatToString | renderFretboard.js:182 | Every digit string without a leading zero is the text of its value, so the text of a number is unique. |
| Text.IntToString | renderFretboard.js:182 | A non-negative number's text is its canonical digit string. A negative number's text is `-` followed by the canonical digits of its magnitude, with no leading zero. |
| Text.Truncate | parseFretboard.js:19 | The result is a prefix of the input, with length min(input length, limit). |
| Validation.OnInput | parseFretboard.js:89-104 | An error is reported as a warning and clears the cache. A success equal to the stored result is reported as unchanged and keeps it. Any other success is logged and becomes the stored result. |
| Validation.Run | parseFretboard.js:89-104 | A run of edits gives one report per edit. An edit warns exactly when it fails to parse, and the warning carries that edit's error. |
| Validation.RunMirrorsLatest | parseFretboard.js:89-104 | After any run of edits, the cache holds the last outcome's result, or nothing if that was an error. An edit is skipped exactly when it succeeds with the result in force before it. It is logged exactly when it succeeds with a different one. |
| Validation.RepeatIsQuiet | parseFretboard.js:96-99 | Validating the same outcome several times logs nothing after the first run. The cache ends holding that outcome's result, or nothing if it was an error. |
| Geometry.FretWindow | renderFretboard.js:60-80 | Every note lies in the window, and the window holds at least five frets. It is exactly frets 1–5 without notes. Otherwise it starts at a note and ends at a note, or is exactly five frets wide. |
| Geometry.FretWindowIsNarrowest | renderFretboard.js:66-78 | No window that holds every note and at least five frets is narrower. The displayed window starts at the lowest note. |
| Geometry.FretWidths | renderFretboard.js:27-35 | There are n widths, and the first is the base width. |
| Geometry.FretWidthsStep | renderFretboard.js:27-35 | Each width is the previous one times the ratio. |
| Geometry.FretWidthsShrink | renderFretboard.js:27-35 | With a positive base and a ratio strictly between 0 and 1, every width is positive and the widths strictly decrease. |
| Geometry.DefaultWidths | renderFretboard.js:21-23 | The five default slots are 100, 94, 88.36, 83.0584 and 78.074896 wide. |
| Geometry.WindowWidths | renderFretboard.js:80-83 | A window gets one positive width per fret. |
| Geometry.SlotCenter | renderFretboard.js:181 | With positive widths, a slot's centre lies strictly between its left and right edges. |
| Geometry.SlotInsideBoard | renderFretboard.js:220-227 | Every slot's edges and centre lie within the board, the centre strictly inside. |
| Geometry.FretAtSlot | renderFretboard.js:170-176 | Every slot of the window is numbered with a fret of the window. |
| Geometry.SlotOfFret | renderFretboard.js:213-218 | A fret of the window goes to a slot in range whose number is that fret, for both handednesses. |
| Geometry.FretLabelsMirror | renderFretboard.js:170-176 | The left-handed numbering is the right-handed one reversed. Right-handed slot f − lo and left-handed slot hi − f show f. Neither handedness shows a fret twice. |
| Geometry.StepLeftLandsOnSlotEdge | renderFretboard.js:123-131 | Stepping left from the right edge over the last k widths lands on the left edge of slot n − k. |
| Layout.FromParsed | renderFretboard.js:40 | A parsed fretboard is handed to the renderer with the same title, and each string keeps its label and pairs, with neither the open nor the muted flag set. |
| Layout.Notes | renderFretboard.js:61-64 | Every fret of every pair of every string is among the collected notes. `LayoutProperties.NotesComeFromPairs` states the converse. |
| Layout.DiagramWidths | renderFretboard.js:80-83 | A diagram has one positive slot width per fret of its window, at least five. |
| Layout.DisplayStrings | renderFretboard.js:58 | Display position s shows string n − 1 − s in the front view and string s in the top view. |
| Layout.Thickness | renderFretboard.js:147-148 | A string is 4 − 0.5·k thick, but never less than 1. So the thickness lies between 1 and 4. |
| Layout.NutLine | renderFretboard.js:110-115 | The first vertical line is at the left edge (right-handed) or the right edge (left-handed). It is thick exactly when fret 1 is the first fret shown. |
| Layout.PairMarks | renderFretboard.js:209-239 | A string's markers have at most two primitives per pair, all painted in marker colours. |
| Layout.Render | renderFretboard.js:44-50 | A diagram only clears the canvas exactly when it has no strings. Otherwise there is one row and one marker group per string, and one wire and one fret number per slot, at least five. |
| LayoutProperties.PairMarksAllShown | renderFretboard.js:209-239 | When every fret is in the window, pair k gets primitives 2k and 2k + 1, in pair order. |
| LayoutProperties.PairMarksAt | renderFretboard.js:220-238 | Pair k's primitives are a disc of radius 15 at its slot's centre on the string, then its finger text at the same point. |
| LayoutProperties.EveryNoteInWindow | renderFretboard.js:61-74 | Every pair of a diagram lies in the diagram's window. |
| LayoutProperties.NotesComeFromPairs | renderFretboard.js:61-64 | Every collected note is the fret of some pair of some string. |
| LayoutProperties.WindowStartsAtLowestNote | renderFretboard.js:60-69 | With nothing fretted the window is frets 1 to 5. Otherwise no pair lies below the window's first fret, and that fret is some pair's fret. |
| LayoutProperties.PairMarkPlacement | renderFretboard.js:211-238 | A pair draws nothing exactly when its fret is outside the window. Otherwise it draws a marker disc, then its finger text, both at the centre of the slot numbered with its fret and on the string's line; with positive widths the disc lies strictly inside that slot. |
| LayoutProperties.StringMarksGlyphs | renderFretboard.js:186-240 | An open string draws its disc, then `O`, at one point on the string's line. A muted string that is not open draws only `X`, on that line. Any other string draws its pairs' markers. The glyphs sit left of the board for a right-handed player and right of it for a left-handed one. |
| LayoutProperties.TitleTextShownUnlessBlank | renderFretboard.js:243-250 | The title draws nothing exactly when it is blank. Otherwise it draws the title once, centred on the canvas at the top. |
| LayoutProperties.EveryFretNumbered | renderFretboard.js:164-184 | Every fret of the window gets a number in the slot that holds that fret. The number's text is the fret's decimal text, and with positive widths it sits inside that slot. |
| LayoutProperties.PairMarksOfString | renderFretboard.js:209-239 | No pair of a string without glyphs is dropped. Each pair draws its disc and finger at its slot's centre on the string's line. |
| LayoutProperties.MarkerSitsOnItsFretNumber | renderFretboard.js:170-227 | A note's slot is in range and numbered with the note's fret. Its disc is centred exactly above that number, strictly inside the slot. |
| LayoutProperties.RowsFollowOriginalStrings | renderFretboard.js:142-161 | Display row s carries the label of the string at its original index, on the line at 40 + 80·s. The line's thickness is that string's, between 1 and 4. |
| LayoutProperties.ViewpointOnlyReordersStrings | renderFretboard.js:58 | The front view shows row s's label and thickness where the top view shows row n − 1 − s. |
| LayoutProperties.ViewpointKeepsFrets | renderFretboard.js:58-184 | The viewpoint changes nothing about the canvas size, the nut, the wires or the fret numbers. |
| LayoutProperties.WireXsMirror | renderFretboard.js:117-139 | Right-handed wire i is at the right edge of slot i. Left-handed wire i is at the left edge of slot n − 1 − i. The nut is at the board's left or right edge. This, with `Geometry.StepLeftLandsOnSlotEdge`, is what the wire positions (`Layout.WireX`) satisfy. |
| LayoutProperties.VerticalLines | renderFretboard.js:107-139 | The plan's nut and wires are at those positions, one wire per slot. |
| LayoutProperties.HandednessMovesOnlyTheNut | renderFretboard.js:107-139 | A left-handed board has the same vertical lines as a right-handed one, in reverse order. Only the nut moves, from the left edge to the right edge. |
| LayoutProperties.FretNumberAt | renderFretboard.js:164-184 | Slot i shows the number of its fret, centred in the slot, 10 below the board. |
| LayoutProperties.FretNumbersMirror | renderFretboard.js:170-182 | The numbers stand at the same positions in both handednesses. Left-handed slot i shows the number of right-handed slot n − 1 − i. |
| LayoutProperties.GlyphsAndLabelsBesideBoard | renderFretboard.js:155-208 | Right-handed labels and glyphs sit left of the board, with labels right-aligned. Left-handed ones sit right of it, left-aligned. An open string draws only its disc and `O`. A muted one draws only its `X`. |
| LayoutProperties.CanvasExtent | renderFretboard.js:87-105 | The canvas is the board plus padding 40 all round and 35 each side. The backdrop covers it, and the board lies strictly inside it. |
| LayoutProperties.StringsOnCanvas | renderFretboard.js:142-161 | Every string line, label and glyph lies on the canvas. |
| LayoutProperties.FretNumbersOnCanvas | renderFretboard.js:164-184 | Every fret number is horizontally inside the board, below it, and on the canvas. |
| LayoutProperties.MarkerCentres | renderFretboard.js:220-230 | Every marker disc of a string is centred on some slot centre. |
| LayoutProperties.MarkersOnBoard | renderFretboard.js:220-230 | Every marker disc is centred horizontally inside the board. |
| LayoutProperties.ParsedFretboardShowsOnlyMarkers | renderFretboard.js:193-239 | A parsed fretboard never shows an open or muted glyph. Each row draws exactly two primitives per pair of its string, all in marker colours. |
| LayoutProperties.TitleOnlyWhenNotBlank | renderFretboard.js:243-250 | The title is drawn, centred at the top, exactly when it is not blank. A diagram with no strings draws nothing. |
| LayoutProperties.PrimsInOrder | renderFretboard.js:98-250 | Gives the offset of every group in the plan's list: the backdrop, the board and the nut at 0–2, the wires from 3, then two primitives per row, the fret numbers, the markers, and the title as the suffix. Each group occupies exactly its own slice, so a caller can find any primitive by its group. |

## Left out

- DOM reads of the inputs (parseFretboard.js:9-11, 18, 20, 68). The title and the rows are plain parameters. A missing title input is the empty title.
- The `WeakMap` keyed by DOM nodes, `addEventListener`, and console output (parseFretboard.js:85-110). The cache is one `Option` per block, and each console call is a `Report` value.
- galleryManager.js and fretboardBlocks.js: user-interface wiring with no separable logic. They are not part of this model.
- The canvas calls themselves, colours and fonts. Each primitive carries only the name of the palette entry used. The canvas, data and `strings` guards (renderFretboard.js:44-45) are reduced to the empty string list; the model has no missing canvas or missing data.
- The assignment of `totalWidth`/`totalHeight` to `canvas.width`/`canvas.height` (renderFretboard.js:95-96), which truncates to whole pixels. The plan keeps the exact extent, and all primitives use it as the source does.
- IEEE-754 rounding: widths, sums and positions are exact reals. `Geometry.DefaultWidths` gives the exact products, not their double roundings.
- The Unicode whitespace of `\s` and `trim()`, and the full `toLowerCase()`. Whitespace is space, tab, newline and carriage return; lower-casing is ASCII only.
- An absent `pairs` field of a string handed to the renderer is the empty pair list.
- Text.Truncate: lengths count Unicode scalar values (Dafny characters), not JavaScript's UTF-16 code units, so labels, titles or fingers with characters outside the Basic Multilingual Plane are cut later than the source cuts them.
- `Text.Tokens`: characterised by its word and blank properties and by `Text.TokensOfJoinedWords` (tokenising undoes joining words with single spaces). Its result is not stated for arbitrary runs of whitespace.

=== FILE: geometry.dfy ===
/** The fretboard geometry behind renderFretboard.js: which frets are shown,
    how wide each slot is, where slots, wires and fret numbers sit, and how
    handedness maps frets to slots. Lengths are reals standing in for the
    JavaScript doubles of the source; rounding is not modelled. */
module Geometry {
  import opened SeqMath

  /** Fewest fret slots ever drawn (palette.minFretsToShow). */
  const MinFretsToShow: int := 5
  /** Width of the leftmost slot (palette.baseFretWidth). */
  const BaseFretWidth: real := 100.0
  /** Each slot is this fraction of the one before (palette.fretWidthRatio). */
  const FretWidthRatio: real := 0.94
  /** Margin around the board (palette.padding). */
  const Padding: real := 40.0
  /** Extra room beside the board for labels and glyphs. */
  const SidePadding: real := 35.0
  /** Vertical distance between neighbouring strings. */
  const StringSpacing: real := 80.0
  /** Left edge of the board. */
  const BoardX: real := Padding + SidePadding
  /** Top edge of the board, which is also the first string. */
  const BoardY: real := Padding

  /** The range of frets on display, both ends included. */
  datatype Window = Window(lo: int, hi: int)
  {
    function Count(): int { hi - lo + 1 }
    predicate Contains(f: int) { lo <= f <= hi }
  }

  /** The displayed frets: from the lowest note, at least `MinFretsToShow`
      slots wide and wide enough for the highest note; frets 1 to 5 when
      nothing is fretted. */
  function FretWindow(notes: seq<int>): (w: Window)
    ensures forall i :: 0 <= i < |notes| ==> w.Contains(notes[i])
    ensures w.Count() >= MinFretsToShow
    ensures notes == [] ==> w == Window(1, MinFretsToShow)
    ensures notes != [] ==> w.lo in notes && (w.hi in notes || w.Count() == MinFretsToShow)
  {
    if notes == [] then Window(1, MinFretsToShow)
    else
      var lo, hi := Min(notes), Max(notes);
      if hi - lo + 1 < MinFretsToShow then Window(lo, lo + MinFretsToShow - 1) else Window(lo, hi)
  }

  /** No window holding every note and at least `MinFretsToShow` frets is
      narrower than the one displayed, and the displayed one starts at the
      lowest note. */
  lemma FretWindowIsNarrowest(notes: seq<int>, other: Window)
    requires forall i :: 0 <= i < |notes| ==> other.Contains(notes[i])
    requires other.Count() >= MinFretsToShow
    ensures FretWindow(notes).Count() <= other.Count()
    ensures notes != [] ==> FretWindow(notes).lo == Min(notes)
  {
    var w := FretWindow(notes);
    if notes != [] && w.Count() > MinFretsToShow {
      var a :| 0 <= a < |notes| && notes[a] == w.lo;
      var b :| 0 <= b < |notes| && notes[b] == w.hi;
      assert other.Contains(notes[a]) && other.Contains(notes[b]);
    }
  }

  /** The slot widths: a geometric progression starting at `base`. */
  function FretWidths(n: nat, base: real, ratio: real): (w: seq<real>)
    ensures |w| == n
    ensures n > 0 ==> w[0] == base
    decreases n
  {
    if n == 0 then [] else [base] + FretWidths(n - 1, base * ratio, ratio)
  }

  /** Each slot is the one before it times `ratio`, as the width loop
      computes them. */
  lemma {:induction false} FretWidthsStep(n: nat, base: real, ratio: real)
    ensures forall i :: 0 <= i < n - 1 ==> FretWidths(n, base, ratio)[i + 1] == FretWidths(n, base, ratio)[i] * ratio
    decreases n
  {
    if n > 1 {
      var w := FretWidths(n, base, ratio);
      var rest := FretWidths(n - 1, base * ratio, ratio);
      FretWidthsStep(n - 1, base * ratio, ratio);
      assert w == [base] + rest;
      forall i | 0 <= i < n - 1
        ensures w[i + 1] == w[i] * ratio
      {
        if i > 0 {
          assert w[i + 1] == rest[i] && w[i] == rest[i - 1];
        }
      }
    }
  }

  /** Each element is the one before it times `ratio`. */
  ghost predicate Geometric(w: seq<real>, ratio: real)
  {
    forall i :: 0 <= i < |w| - 1 ==> w[i + 1] == w[i] * ratio
  }

  lemma {:induction false} GeometricPositive(w: seq<real>, ratio: real, i: nat)
    requires Geometric(w, ratio) && |w| > 0 && w[0] > 0.0 && ratio > 0.0
    requires i < |w|
    ensures w[i] > 0.0
  {
    if i > 0 {
      GeometricPositive(w, ratio, i - 1);
      assert w[i] == w[i - 1] * ratio;
    }
  }

  lemma {:induction false} GeometricShrinking(w: seq<real>, ratio: real, i: nat, j: nat)
    requires Geometric(w, ratio) && AllPositive(w) && ratio < 1.0
    requires i < j < |w|
    ensures w[i] > w[j]
    decreases j - i
  {
    assert w[j] == w[j - 1] * ratio;
    assert w[j - 1] * ratio < w[j - 1];
    if i < j - 1 {
      GeometricShrinking(w, ratio, i, j - 1);
    }
  }

  /** A positive start and a ratio below one give positive, strictly
      shrinking slots. */
  lemma FretWidthsShrink(n: nat, base: real, ratio: real)
    requires base > 0.0 && 0.0 < ratio < 1.0
    ensures AllPositive(FretWidths(n, base, ratio))
    ensures forall i, j :: 0 <= i < j < n ==> FretWidths(n, base, ratio)[i] > FretWidths(n, base, ratio)[j]
  {
    var w := FretWidths(n, base, ratio);
    FretWidthsStep(n, base, ratio);
    forall i | 0 <= i < n
      ensures w[i] > 0.0
    {
      GeometricPositive(w, ratio, i);
    }
    forall i, j | 0 <= i < j < n
      ensures w[i] > w[j]
    {
      GeometricShrinking(w, ratio, i, j);
    }
  }

  /** The five slots of the default window. */
  lemma DefaultWidths()
    ensures FretWidths(5, BaseFretWidth, FretWidthRatio) == [100.0, 94.0, 88.36, 83.0584, 78.074896]
  {
  }

  /** The slot widths of a window. */
  function WindowWidths(w: Window): (ws: seq<real>)
    requires w.Count() >= 0
    ensures |ws| == w.Count()
    ensures AllPositive(ws)
  {
    FretWidthsShrink(w.Count(), BaseFretWidth, FretWidthRatio);
    FretWidths(w.Count(), BaseFretWidth, FretWidthRatio)
  }

  /** Left edge of slot `i`. */
  function SlotLeft(ws: seq<real>, i: nat): real
    requires i <= |ws|
  {
    BoardX + Sum(ws[..i])
  }

  /** Horizontal middle of slot `i`, where its number and its markers go. */
  function SlotCenter(ws: seq<real>, i: nat): (x: real)
    requires i < |ws|
    ensures AllPositive(ws) ==> SlotLeft(ws, i) < x < SlotLeft(ws, i + 1)
  {
    SumPrefixStep(ws, i);
    SlotLeft(ws, i) + ws[i] / 2.0
  }

  /** With positive widths every slot lies strictly inside the board. */
  lemma SlotInsideBoard(ws: seq<real>, i: nat)
    requires AllPositive(ws) && i < |ws|
    ensures BoardX <= SlotLeft(ws, i) < SlotCenter(ws, i) < SlotLeft(ws, i + 1) <= BoardX + Sum(ws)
  {
    assert ws[..|ws|] == ws;
    if 0 < i {
      PrefixSumIncreasing(ws, 0, i);
    }
    if i + 1 < |ws| {
      PrefixSumIncreasing(ws, i + 1, |ws|);
    }
  }

  datatype Handedness = RightHanded | LeftHanded

  /** The fret number shown under slot `i`: frets rise to the right for a
      right-handed player and to the left for a left-handed one. */
  function FretAtSlot(w: Window, h: Handedness, i: int): (f: int)
    ensures 0 <= i < w.Count() ==> w.Contains(f)
  {
    if h == LeftHanded then w.hi - i else w.lo + i
  }

  /** The slot a fret's marker goes in; the inverse of `FretAtSlot`. */
  function SlotOfFret(w: Window, h: Handedness, f: int): (i: int)
    ensures w.Contains(f) ==> 0 <= i < w.Count() && FretAtSlot(w, h, i) == f
  {
    if h == LeftHanded then w.hi - f else f - w.lo
  }

  /** The fret numbers of all slots, left to right. */
  function FretLabels(w: Window, h: Handedness): (fs: seq<int>)
    requires w.Count() >= 0
    ensures |fs| == w.Count()
  {
    seq(w.Count(), i => FretAtSlot(w, h, i))
  }

  /** Each handedness shows every fret of the window exactly once, and the
      two show them in opposite orders. */
  lemma FretLabelsMirror(w: Window)
    requires w.Count() >= 0
    ensures FretLabels(w, LeftHanded) == Reverse(FretLabels(w, RightHanded))
    ensures forall f :: w.Contains(f) ==>
      FretLabels(w, RightHanded)[f - w.lo] == f && FretLabels(w, LeftHanded)[w.hi - f] == f
    ensures forall h: Handedness, i, j :: 0 <= i < j < w.Count() ==> FretLabels(w, h)[i] != FretLabels(w, h)[j]
  {
  }

  /** The left-handed fret-wire loop: start at the right edge `x` and step
      left over the last `k` widths, the rightmost first. */
  function StepLeft(x: real, ws: seq<real>, k: nat): real
    requires k <= |ws|
  {
    if k == 0 then x else StepLeft(x, ws, k - 1) - ws[|ws| - k]
  }

  /** Stepping left from the right edge over the last `k` slots lands on the
      left edge of slot `|ws| - k`: the left-handed wires fall on the same
      positions as the right-handed ones. */
  lemma {:induction false} StepLeftLandsOnSlotEdge(ws: seq<real>, k: nat)
    requires k <= |ws|
    ensures StepLeft(BoardX + Sum(ws), ws, k) == SlotLeft(ws, |ws| - k)
  {
    if k == 0 {
      assert ws[..|ws|] == ws;
    } else {
      StepLeftLandsOnSlotEdge(ws, k - 1);
      SumPrefixStep(ws, |ws| - k);
    }
  }
}

=== FILE: layout.dfy ===
/** The drawing computed by renderFretboard (renderFretboard.js:38-250), as a
    pure function from the diagram, the handedness and the viewpoint to a
    plan: the canvas extent and the primitives in the order the canvas calls
    draw them. Colours are kept as the name of the palette entry used;
    fonts and the paint calls themselves are left out. */
module Layout {
  import opened SeqMath
  import opened Text
  import opened Geometry
  import Parse

  /** Radius of the disc behind an open string's `O`. */
  const OpenRadius: real := 12.0
  /** Radius of a fretted-note marker. */
  const MarkerRadius: real := 15.0
  /** Gap between the board edge and a string label. */
  const LabelGap: real := 10.0
  /** Gap between the board bottom and the fret numbers. */
  const NumberGap: real := 10.0
  /** Distance of the title from the top of the canvas. */
  const TitleY: real := 10.0

  /** Whether the diagram is seen from above the neck or from the front,
      which puts the strings in the opposite vertical order. */
  datatype Viewpoint = TopView | FrontView

  /** One string as the renderer receives it; the flags come from callers
      other than the parser. */
  datatype StringData = StringData(name: string, pairs: seq<Parse.Pair>, open: bool, muted: bool)

  datatype Diagram = Diagram(title: string, strings: seq<StringData>)

  /** The diagram of a parsed fretboard: the parser never sets the flags. */
  function FromParsed(fb: Parse.Fretboard): (d: Diagram)
    ensures d.title == fb.title && |d.strings| == |fb.strings|
    ensures forall s :: 0 <= s < |d.strings| ==>
      && d.strings[s].name == fb.strings[s].name
      && d.strings[s].pairs == fb.strings[s].pairs
      && !d.strings[s].open && !d.strings[s].muted
  {
    Diagram(fb.title, seq(|fb.strings|, s requires 0 <= s < |fb.strings| =>
      StringData(fb.strings[s].name, fb.strings[s].pairs, false, false)))
  }

  /** Every fretted note of every string, in string order. */
  function Notes(ss: seq<StringData>): (ns: seq<int>)
    ensures forall s, k :: 0 <= s < |ss| && 0 <= k < |ss[s].pairs| ==> ss[s].pairs[k].fret in ns
    decreases |ss|
  {
    if ss == [] then []
    else
      var here, rest := Parse.Frets(ss[0].pairs), Notes(ss[1..]);
      assert forall s :: 1 <= s < |ss| ==> ss[s] == ss[1..][s - 1];
      here + rest
  }

  // ---- Primitives --------------------------------------------------------

  /** The palette entry a primitive is painted with. */
  datatype Ink =
    | BackgroundInk | FretboardInk | FretInk | NutInk | StringInk | LabelInk
    | FretNumberInk | OpenInk | MutedInk | MarkerInk | MarkerTextInk

  datatype Align = AlignLeft | AlignRight | AlignCenter
  datatype Baseline = BaselineMiddle | BaselineTop

  /** A canvas drawing call. */
  datatype Prim =
    | FillRect(left: real, top: real, width: real, height: real, ink: Ink)
    | StrokeLine(x1: real, y1: real, x2: real, y2: real, lineWidth: real, ink: Ink)
    | FillCircle(cx: real, cy: real, radius: real, ink: Ink)
    | FillText(text: string, x: real, y: real, align: Align, baseline: Baseline, ink: Ink)

  /** A string's line and its label (caption), drawn one after the other. */
  datatype Row = Row(line: Prim, caption: Prim)

  /** Everything a non-empty diagram draws, section by section. */
  datatype Plan = Plan(
    width: real, height: real,
    backdrop: Prim, board: Prim, nut: Prim,
    wires: seq<Prim>,
    rows: seq<Row>,
    fretNumbers: seq<Prim>,
    marks: seq<seq<Prim>>,
    title: seq<Prim>)
  {
    /** Each string's line followed by its caption, string by string. */
    function RowPrims(): seq<seq<Prim>>
    {
      seq(|rows|, s requires 0 <= s < |rows| => [rows[s].line, rows[s].caption])
    }

    /** The primitives in drawing order. */
    function Prims(): seq<Prim>
    {
      [backdrop, board, nut] + wires + Flatten(RowPrims()) + fretNumbers + Flatten(marks) + title
    }
  }

  /** The canvas is either cleared or drawn on. */
  datatype Drawing = Cleared | Drawn(plan: Plan)

  // ---- Geometry of a diagram ---------------------------------------------

  function DiagramWindow(d: Diagram): Window
  {
    FretWindow(Notes(d.strings))
  }

  function DiagramWidths(d: Diagram): (ws: seq<real>)
    ensures |ws| == DiagramWindow(d).Count() >= MinFretsToShow
    ensures AllPositive(ws)
  {
    WindowWidths(DiagramWindow(d))
  }

  /** Height of the board: the distance from the first string to the last. */
  function BoardHeight(rows: nat): real
  {
    (rows - 1) as real * StringSpacing
  }

  /** The y coordinate of the string drawn in display position `s`. */
  function StringY(s: nat): real
  {
    BoardY + s as real * StringSpacing
  }

  // ---- Strings -----------------------------------------------------------

  /** The index, among the diagram's strings, of the one drawn at display
      position `s` of `n`. */
  function OriginalIndex(n: nat, v: Viewpoint, s: nat): (k: nat)
    requires s < n
    ensures k < n
  {
    if v == FrontView then n - 1 - s else s
  }

  /** The strings from top to bottom: reversed in the front view. */
  function DisplayStrings(ss: seq<StringData>, v: Viewpoint): (ds: seq<StringData>)
    ensures |ds| == |ss|
    ensures forall s :: 0 <= s < |ss| ==> ds[s] == ss[OriginalIndex(|ss|, v, s)]
  {
    if v == FrontView then Reverse(ss) else ss
  }

  /** Line width of the string at original index `k`: thinning by a half per
      string, never below one. */
  function Thickness(k: nat): (t: real)
    ensures t >= 1.0 && t >= 4.0 - 0.5 * k as real
    ensures t == 1.0 || t == 4.0 - 0.5 * k as real
    ensures t <= 4.0
  {
    if 4.0 - 0.5 * k as real >= 1.0 then 4.0 - 0.5 * k as real else 1.0
  }

  /** Where string labels go: left of the board, right-aligned, for a
      right-handed player; right of it, left-aligned, for a left-handed one. */
  function LabelX(h: Handedness, boardWidth: real): real
  {
    if h == LeftHanded then BoardX + boardWidth + LabelGap else BoardX - LabelGap
  }

  function LabelAlign(h: Handedness): Align
  {
    if h == LeftHanded then AlignLeft else AlignRight
  }

  function StringRow(sd: StringData, n: nat, s: nat, boardWidth: real, h: Handedness, v: Viewpoint): Row
    requires s < n
  {
    var y := StringY(s);
    Row(StrokeLine(BoardX, y, BoardX + boardWidth, y, Thickness(OriginalIndex(n, v, s)), StringInk),
        FillText(sd.name, LabelX(h, boardWidth), y, LabelAlign(h), BaselineMiddle, LabelInk))
  }

  function Rows(ds: seq<StringData>, boardWidth: real, h: Handedness, v: Viewpoint): (rs: seq<Row>)
    ensures |rs| == |ds|
  {
    seq(|ds|, s requires 0 <= s < |ds| => StringRow(ds[s], |ds|, s, boardWidth, h, v))
  }

  // ---- Frets -------------------------------------------------------------

  /** The first vertical line: at the left edge for a right-handed player,
      at the right edge for a left-handed one. */
  function NutX(h: Handedness, boardWidth: real): real
  {
    if h == LeftHanded then BoardX + boardWidth else BoardX
  }

  /** The first vertical line is drawn as a thick nut only when fret 1 is
      the first fret shown. */
  function NutLine(w: Window, h: Handedness, boardWidth: real, boardHeight: real): (p: Prim)
    ensures p.StrokeLine? && p.x1 == p.x2 == NutX(h, boardWidth)
    ensures p.lineWidth == 6.0 <==> w.lo == 1
  {
    var x := NutX(h, boardWidth);
    if w.lo == 1 then StrokeLine(x, BoardY, x, BoardY + boardHeight, 6.0, NutInk)
    else StrokeLine(x, BoardY, x, BoardY + boardHeight, 2.0, FretInk)
  }

  /** The x of fret wire `i`: a running sum from the left edge for a
      right-handed player; for a left-handed one, a walk left from the right
      edge over the last `i + 1` widths. */
  function WireX(ws: seq<real>, h: Handedness, i: nat): real
    requires i < |ws|
  {
    if h == LeftHanded then StepLeft(BoardX + Sum(ws), ws, i + 1) else SlotLeft(ws, i + 1)
  }

  function Wires(ws: seq<real>, h: Handedness, boardHeight: real): (ps: seq<Prim>)
    ensures |ps| == |ws|
  {
    seq(|ws|, i requires 0 <= i < |ws| =>
      StrokeLine(WireX(ws, h, i), BoardY, WireX(ws, h, i), BoardY + boardHeight, 2.0, FretInk))
  }

  /** The fret number centred under each slot. */
  function FretNumbers(w: Window, ws: seq<real>, h: Handedness, boardHeight: real): (ps: seq<Prim>)
    requires |ws| == w.Count()
    ensures |ps| == |ws|
  {
    seq(|ws|, i requires 0 <= i < |ws| =>
      FillText(IntToString(FretAtSlot(w, h, i)), SlotCenter(ws, i), BoardY + boardHeight + NumberGap,
               AlignCenter, BaselineTop, FretNumberInk))
  }

  // ---- Markers -----------------------------------------------------------

  /** Where an open or muted glyph goes: in the side padding, on the label
      side. */
  function GlyphX(h: Handedness, boardWidth: real): real
  {
    if h == LeftHanded then BoardX + boardWidth + SidePadding / 2.0 else BoardX - SidePadding / 2.0
  }

  /** The marker for one pair: a disc in its fret's slot with the finger on
      it, or nothing when the fret is outside the window. */
  function PairMark(p: Parse.Pair, w: Window, ws: seq<real>, h: Handedness, y: real): seq<Prim>
    requires |ws| == w.Count()
  {
    if !w.Contains(p.fret) then []
    else
      var x := SlotCenter(ws, SlotOfFret(w, h, p.fret));
      [FillCircle(x, y, MarkerRadius, MarkerInk), FillText(p.finger, x, y, AlignCenter, BaselineMiddle, MarkerTextInk)]
  }

  function PairMarks(ps: seq<Parse.Pair>, w: Window, ws: seq<real>, h: Handedness, y: real): (ms: seq<Prim>)
    requires |ws| == w.Count()
    ensures |ms| <= 2 * |ps|
    ensures forall j :: 0 <= j < |ms| ==> ms[j].ink == MarkerInk || ms[j].ink == MarkerTextInk
    decreases |ps|
  {
    if ps == [] then []
    else PairMark(ps[0], w, ws, h, y) + PairMarks(ps[1..], w, ws, h, y)
  }

  /** What is drawn for one string: an open string's `O` wins over a mute's
      `X`, which wins over the fretted notes. */
  function StringMarks(sd: StringData, w: Window, ws: seq<real>, h: Handedness, y: real): seq<Prim>
    requires |ws| == w.Count()
  {
    var gx := GlyphX(h, Sum(ws));
    if sd.open then
      [FillCircle(gx, y, OpenRadius, OpenInk), FillText("O", gx, y, AlignCenter, BaselineMiddle, MarkerTextInk)]
    else if sd.muted then
      [FillText("X", gx, y, AlignCenter, BaselineMiddle, MutedInk)]
    else
      PairMarks(sd.pairs, w, ws, h, y)
  }

  function Marks(ds: seq<StringData>, w: Window, ws: seq<real>, h: Handedness): (ms: seq<seq<Prim>>)
    requires |ws| == w.Count()
    ensures |ms| == |ds|
  {
    seq(|ds|, s requires 0 <= s < |ds| => StringMarks(ds[s], w, ws, h, StringY(s)))
  }

  /** The title, centred at the top, unless it is blank. */
  function TitleText(title: string, canvasWidth: real): seq<Prim>
  {
    if IsBlank(title) then [] else [FillText(title, canvasWidth / 2.0, TitleY, AlignCenter, BaselineTop, LabelInk)]
  }

  // ---- The whole drawing -------------------------------------------------

  /** Lays out a diagram. A diagram without strings only clears the canvas. */
  function Render(d: Diagram, h: Handedness, v: Viewpoint): (r: Drawing)
    ensures r.Cleared? <==> d.strings == []
    ensures r.Drawn? ==>
      && |r.plan.rows| == |r.plan.marks| == |d.strings|
      && |r.plan.wires| == |r.plan.fretNumbers| == DiagramWindow(d).Count() >= MinFretsToShow
  {
    if d.strings == [] then Cleared
    else
      var n := |d.strings|;
      var w := DiagramWindow(d);
      var ws := DiagramWidths(d);
      var boardWidth, boardHeight := Sum(ws), BoardHeight(n);
      var width := boardWidth + 2.0 * Padding + 2.0 * SidePadding;
      var height := boardHeight + 2.0 * Padding;
      var ds := DisplayStrings(d.strings, v);
      Drawn(Plan(width, height,
        FillRect(0.0, 0.0, width, height, BackgroundInk),
        FillRect(BoardX, BoardY, boardWidth, boardHeight, FretboardInk),
        NutLine(w, h, boardWidth, boardHeight),
        Wires(ws, h, boardHeight),
        Rows(ds, boardWidth, h, v),
        FretNumbers(w, ws, h, boardHeight),
        Marks(ds, w, ws, h),
        TitleText(d.title, width)))
  }
}

=== FILE: layout_properties.dfy ===
/** What the fretboard drawing promises: markers sit in the slot whose
    number they show, no note of the diagram is dropped, the two mirrorings
    (handedness and viewpoint) do what they say and nothing else, and every
    anchor lies on the canvas. */
module LayoutProperties {
  import opened SeqMath
  import opened Text
  import opened Geometry
  import opened Layout
  import Parse

  /** When every fret is in the window, each pair gets its two primitives,
      in pair order. */
  lemma {:induction false} PairMarksAllShown(ps: seq<Parse.Pair>, w: Window, ws: seq<real>, h: Handedness, y: real)
    requires |ws| == w.Count()
    requires forall k :: 0 <= k < |ps| ==> w.Contains(ps[k].fret)
    ensures |PairMarks(ps, w, ws, h, y)| == 2 * |ps|
    ensures forall k :: 0 <= k < |ps| ==> PairMarks(ps, w, ws, h, y)[2 * k .. 2 * k + 2] == PairMark(ps[k], w, ws, h, y)
    decreases |ps|
  {
    if ps != [] {
      var ms := PairMarks(ps, w, ws, h, y);
      var here := PairMark(ps[0], w, ws, h, y);
      var rest := PairMarks(ps[1..], w, ws, h, y);
      PairMarksAllShown(ps[1..], w, ws, h, y);
      assert |here| == 2 && ms == here + rest;
      forall k | 0 <= k < |ps|
        ensures ms[2 * k .. 2 * k + 2] == PairMark(ps[k], w, ws, h, y)
      {
        if k == 0 {
          assert ms[..2] == here;
        } else {
          assert ps[k] == ps[1..][k - 1];
          BlockAt(ms, here, rest, k, PairMark(ps[k], w, ws, h, y));
        }
      }
    }
  }

  /** Block `k` of a two-element head followed by `rest` is block `k - 1`
      of `rest`. */
  lemma BlockAt<T>(ms: seq<T>, here: seq<T>, rest: seq<T>, k: int, blk: seq<T>)
    requires ms == here + rest && |here| == 2 && 1 <= k && 2 * k + 2 <= |ms|
    requires rest[2 * (k - 1) .. 2 * (k - 1) + 2] == blk
    ensures ms[2 * k .. 2 * k + 2] == blk
  {
    SliceOfSuffix(here, rest, 2 * k, 2 * k + 2);
  }

  lemma PairMarksAt(ps: seq<Parse.Pair>, w: Window, ws: seq<real>, h: Handedness, y: real, k: nat)
    requires |ws| == w.Count()
    requires forall j :: 0 <= j < |ps| ==> w.Contains(ps[j].fret)
    requires k < |ps|
    ensures var ms, x := PairMarks(ps, w, ws, h, y), SlotCenter(ws, SlotOfFret(w, h, ps[k].fret));
      && |ms| == 2 * |ps|
      && ms[2 * k] == FillCircle(x, y, MarkerRadius, MarkerInk)
      && ms[2 * k + 1] == FillText(ps[k].finger, x, y, AlignCenter, BaselineMiddle, MarkerTextInk)
  {
    var ms := PairMarks(ps, w, ws, h, y);
    PairMarksAllShown(ps, w, ws, h, y);
    assert ms[2 * k] == ms[2 * k .. 2 * k + 2][0];
    assert ms[2 * k + 1] == ms[2 * k .. 2 * k + 2][1];
  }

  /** Every pair of the diagram lies in the window, so none is skipped. */
  lemma EveryNoteInWindow(d: Diagram, s: nat, k: nat)
    requires s < |d.strings| && k < |d.strings[s].pairs|
    ensures DiagramWindow(d).Contains(d.strings[s].pairs[k].fret)
  {
    var ns := Notes(d.strings);
    var f := d.strings[s].pairs[k].fret;
    var j :| 0 <= j < |ns| && ns[j] == f;
  }

  /** `f` is the fret of some pair of some string. */
  ghost predicate FretOfSomePair(ss: seq<StringData>, f: int)
  {
    exists s, k :: 0 <= s < |ss| && 0 <= k < |ss[s].pairs| && f == ss[s].pairs[k].fret
  }

  /** Every note is the fret of some pair of some string: `Notes` invents
      nothing. */
  lemma {:induction false} NotesComeFromPairs(ss: seq<StringData>)
    ensures forall j :: 0 <= j < |Notes(ss)| ==> FretOfSomePair(ss, Notes(ss)[j])
    decreases |ss|
  {
    if ss == [] {
      assert Notes(ss) == [];
    } else {
      var here, rest := Parse.Frets(ss[0].pairs), Notes(ss[1..]);
      NotesComeFromPairs(ss[1..]);
      var ns := Notes(ss);
      assert ns == here + rest;
      forall j | 0 <= j < |ns|
        ensures FretOfSomePair(ss, ns[j])
      {
        if j < |here| {
          assert ns[j] == ss[0].pairs[j].fret;
        } else {
          assert ns[j] == rest[j - |here|];
          LaterFretOfSomePair(ss, rest[j - |here|]);
        }
      }
    }
  }

  lemma LaterFretOfSomePair(ss: seq<StringData>, f: int)
    requires ss != [] && FretOfSomePair(ss[1..], f)
    ensures FretOfSomePair(ss, f)
  {
    var s, k :| 0 <= s < |ss[1..]| && 0 <= k < |ss[1..][s].pairs| && f == ss[1..][s].pairs[k].fret;
    assert ss[s + 1] == ss[1..][s];
  }

  /** The displayed frets start at the lowest fretted note of any string; with
      no fretted note they are frets 1 to `MinFretsToShow`. */
  lemma WindowStartsAtLowestNote(d: Diagram)
    ensures (forall s :: 0 <= s < |d.strings| ==> d.strings[s].pairs == []) ==>
      DiagramWindow(d) == Window(1, MinFretsToShow)
    ensures forall s, k :: 0 <= s < |d.strings| && 0 <= k < |d.strings[s].pairs| ==>
      DiagramWindow(d).lo <= d.strings[s].pairs[k].fret
    ensures (exists s :: 0 <= s < |d.strings| && d.strings[s].pairs != []) ==>
      exists s, k :: 0 <= s < |d.strings| && 0 <= k < |d.strings[s].pairs| && DiagramWindow(d).lo == d.strings[s].pairs[k].fret
  {
    var ns := Notes(d.strings);
    NotesComeFromPairs(d.strings);
    if exists s :: 0 <= s < |d.strings| && d.strings[s].pairs != [] {
      var s :| 0 <= s < |d.strings| && d.strings[s].pairs != [];
      assert d.strings[s].pairs[0].fret in ns;
      var j :| 0 <= j < |ns| && ns[j] == DiagramWindow(d).lo;
      assert FretOfSomePair(d.strings, ns[j]);
    }
  }

  /** One pair's marker: nothing when its fret is outside the window;
      otherwise a disc centred in the slot numbered with that fret, on the
      string's line, with the finger written at the disc's centre. */
  lemma PairMarkPlacement(p: Parse.Pair, w: Window, ws: seq<real>, h: Handedness, y: real)
    requires |ws| == w.Count()
    ensures var ms := PairMark(p, w, ws, h, y); ms == [] <==> !w.Contains(p.fret)
    ensures var ms, i := PairMark(p, w, ws, h, y), SlotOfFret(w, h, p.fret);
      w.Contains(p.fret) ==>
        && |ms| == 2 && 0 <= i < |ws| && FretAtSlot(w, h, i) == p.fret
        && ms[0].FillCircle? && ms[0].ink == MarkerInk && ms[0].cx == SlotCenter(ws, i) && ms[0].cy == y
        && ms[1].FillText? && ms[1].text == p.finger && ms[1].x == ms[0].cx && ms[1].y == y
        && (AllPositive(ws) ==> SlotLeft(ws, i) < ms[0].cx < SlotLeft(ws, i + 1))
  {
  }

  /** What one string shows: an open string's `O` on a disc, else a muted
      string's `X`, both beside the board on the label side; otherwise its
      pairs' markers. */
  lemma StringMarksGlyphs(sd: StringData, w: Window, ws: seq<real>, h: Handedness, y: real)
    requires |ws| == w.Count()
    ensures var ms := StringMarks(sd, w, ws, h, y);
      && (sd.open ==>
            (|ms| == 2 && ms[0].FillCircle? && ms[0].ink == OpenInk && ms[1].FillText? && ms[1].text == "O"
             && ms[0].cx == ms[1].x && ms[0].cy == y && ms[1].y == y))
      && (!sd.open && sd.muted ==> |ms| == 1 && ms[0].FillText? && ms[0].text == "X" && ms[0].ink == MutedInk && ms[0].y == y)
      && (!sd.open && !sd.muted ==> ms == PairMarks(sd.pairs, w, ws, h, y))
    ensures var ms := StringMarks(sd, w, ws, h, y);
      sd.open || sd.muted ==>
        (var gx := if sd.open then ms[0].cx else ms[0].x;
         (h == RightHanded ==> gx < BoardX) && (h == LeftHanded ==> gx > BoardX + Sum(ws)))
  {
  }

  /** The title is drawn once, centred across the canvas, exactly when it is
      not blank. */
  lemma TitleTextShownUnlessBlank(title: string, canvasWidth: real)
    ensures var ps := TitleText(title, canvasWidth); ps == [] <==> IsBlank(title)
    ensures var ps := TitleText(title, canvasWidth);
      ps != [] ==> |ps| == 1 && ps[0].FillText? && ps[0].text == title && ps[0].x == canvasWidth / 2.0 && ps[0].y == TitleY && ps[0].align == AlignCenter
  {
  }

  /** Each string without a glyph draws exactly two primitives per pair, in
      pair order: a disc centred in the slot of the pair's fret, on the
      string's line, and the finger written on it. */
  lemma PairMarksOfString(d: Diagram, h: Handedness, v: Viewpoint, s: nat, k: nat)
    requires s < |d.strings|
    requires var sd := DisplayStrings(d.strings, v)[s]; !sd.open && !sd.muted && k < |sd.pairs|
    ensures Render(d, h, v).Drawn?
    ensures var ms := Render(d, h, v).plan.marks[s];
      var pair := DisplayStrings(d.strings, v)[s].pairs[k];
      var x := SlotCenter(DiagramWidths(d), SlotOfFret(DiagramWindow(d), h, pair.fret));
      && DiagramWindow(d).Contains(pair.fret)
      && |ms| == 2 * |DisplayStrings(d.strings, v)[s].pairs|
      && ms[2 * k] == FillCircle(x, StringY(s), MarkerRadius, MarkerInk)
      && ms[2 * k + 1] == FillText(pair.finger, x, StringY(s), AlignCenter, BaselineMiddle, MarkerTextInk)
  {
    var w, ws := DiagramWindow(d), DiagramWidths(d);
    var sd := DisplayStrings(d.strings, v)[s];
    var o := OriginalIndex(|d.strings|, v, s);
    assert sd == d.strings[o];
    forall j | 0 <= j < |sd.pairs|
      ensures w.Contains(sd.pairs[j].fret)
    {
      EveryNoteInWindow(d, o, j);
    }
    PairMarksAt(sd.pairs, w, ws, h, StringY(s), k);
    assert Render(d, h, v).plan.marks[s] == PairMarks(sd.pairs, w, ws, h, StringY(s));
  }

  /** A fretted note's disc is centred, strictly inside its slot, exactly
      above the fret number of that slot, and that number is the note's
      fret. */
  lemma MarkerSitsOnItsFretNumber(d: Diagram, h: Handedness, v: Viewpoint, s: nat, k: nat)
    requires s < |d.strings|
    requires var sd := DisplayStrings(d.strings, v)[s]; !sd.open && !sd.muted && k < |sd.pairs|
    ensures Render(d, h, v).Drawn?
    ensures var p := Render(d, h, v).plan;
      var f := DisplayStrings(d.strings, v)[s].pairs[k].fret;
      var i := SlotOfFret(DiagramWindow(d), h, f);
      var ws := DiagramWidths(d);
      && 0 <= i < |p.fretNumbers|
      && FretAtSlot(DiagramWindow(d), h, i) == f
      && p.fretNumbers[i].FillText? && p.fretNumbers[i].text == IntToString(f)
      && 2 * k < |p.marks[s]| && p.marks[s][2 * k].FillCircle? && p.marks[s][2 * k].cx == p.fretNumbers[i].x
      && SlotLeft(ws, i) < p.fretNumbers[i].x < SlotLeft(ws, i + 1)
  {
    var w := DiagramWindow(d);
    var f := DisplayStrings(d.strings, v)[s].pairs[k].fret;
    PairMarksOfString(d, h, v, s, k);
    var i := SlotOfFret(w, h, f);
    FretNumberAt(d, h, v, i);
    var g := FretAtSlot(w, h, i);
    assert g == f;
    assert Render(d, h, v).plan.fretNumbers[i].text == IntToString(g);
  }

  /** Display position `s` shows the diagram's string `OriginalIndex(s)`: its
      label, on the line at height `BoardY + 80 s`, with that string's own
      thickness, between one and four. */
  lemma RowsFollowOriginalStrings(d: Diagram, h: Handedness, v: Viewpoint, s: nat)
    requires s < |d.strings|
    ensures Render(d, h, v).Drawn?
    ensures var row := Render(d, h, v).plan.rows[s];
      var k := OriginalIndex(|d.strings|, v, s);
      && k == (if v == FrontView then |d.strings| - 1 - s else s)
      && row.caption.FillText? && row.caption.text == d.strings[k].name && row.caption.y == StringY(s)
      && row.line.StrokeLine? && row.line.y1 == row.line.y2 == StringY(s)
      && row.line.lineWidth == Thickness(k) && 1.0 <= row.line.lineWidth <= 4.0
  {
  }

  /** Turning the diagram to the front view puts each string's label and
      thickness in the mirrored row. */
  lemma ViewpointOnlyReordersStrings(d: Diagram, h: Handedness, s: nat)
    requires s < |d.strings|
    ensures Render(d, h, TopView).Drawn? && Render(d, h, FrontView).Drawn?
    ensures var top, front := Render(d, h, TopView).plan, Render(d, h, FrontView).plan;
      var m := |d.strings| - 1 - s;
      && front.rows[s].caption.text == top.rows[m].caption.text
      && front.rows[s].line.lineWidth == top.rows[m].line.lineWidth
  {
    var m := |d.strings| - 1 - s;
    assert OriginalIndex(|d.strings|, FrontView, s) == m && OriginalIndex(|d.strings|, TopView, m) == m;
    RowsFollowOriginalStrings(d, h, TopView, m);
    RowsFollowOriginalStrings(d, h, FrontView, s);
    var top, front := Render(d, h, TopView).plan.rows[m], Render(d, h, FrontView).plan.rows[s];
    assert top.caption.text == d.strings[m].name == front.caption.text;
    assert top.line.lineWidth == Thickness(m) == front.line.lineWidth;
  }

  /** The viewpoint plays no part in the canvas size or in any vertical
      line or fret number. */
  lemma ViewpointKeepsFrets(d: Diagram, h: Handedness)
    requires d.strings != []
    ensures Render(d, h, TopView).Drawn? && Render(d, h, FrontView).Drawn?
    ensures var top, front := Render(d, h, TopView).plan, Render(d, h, FrontView).plan;
      && front.width == top.width && front.height == top.height
      && front.nut == top.nut && front.wires == top.wires && front.fretNumbers == top.fretNumbers
  {
    var top, front := Render(d, h, TopView), Render(d, h, FrontView);
    assert top.Drawn? && front.Drawn?;
  }

  /** Fret wire `i` of a right-handed board sits on the right edge of slot
      `i`; on a left-handed board it sits on the left edge of slot
      `n - 1 - i`, so the two boards share their wire positions. */
  lemma {:induction false} WireXsMirror(ws: seq<real>)
    ensures forall i :: 0 <= i < |ws| ==>
      WireX(ws, RightHanded, i) == SlotLeft(ws, i + 1) && WireX(ws, LeftHanded, i) == SlotLeft(ws, |ws| - 1 - i)
    ensures NutX(RightHanded, Sum(ws)) == SlotLeft(ws, 0) && NutX(LeftHanded, Sum(ws)) == SlotLeft(ws, |ws|)
  {
    assert ws[..|ws|] == ws && ws[..0] == [];
    forall i | 0 <= i < |ws|
      ensures WireX(ws, LeftHanded, i) == SlotLeft(ws, |ws| - 1 - i)
    {
      StepLeftLandsOnSlotEdge(ws, i + 1);
    }
  }

  /** The vertical lines of a diagram are its nut and its wires, at the
      edges of the slots the widths give. */
  lemma VerticalLines(d: Diagram, h: Handedness, v: Viewpoint)
    requires d.strings != []
    ensures Render(d, h, v).Drawn?
    ensures var p, ws := Render(d, h, v).plan, DiagramWidths(d);
      && p.nut.StrokeLine? && p.nut.x1 == NutX(h, Sum(ws))
      && |p.wires| == |ws|
      && forall i :: 0 <= i < |ws| ==> p.wires[i].StrokeLine? && p.wires[i].x1 == WireX(ws, h, i)
  {
    var ws := DiagramWidths(d);
    var p := Render(d, h, v).plan;
    assert p.wires == Wires(ws, h, BoardHeight(|d.strings|));
  }

  /** A left-handed diagram draws its vertical lines where a right-handed
      one does, in reverse order: only the nut moves, from the left edge to
      the right edge. */
  lemma HandednessMovesOnlyTheNut(d: Diagram, v: Viewpoint)
    requires d.strings != []
    ensures Render(d, LeftHanded, v).Drawn? && Render(d, RightHanded, v).Drawn?
    ensures var lh, rh := Render(d, LeftHanded, v).plan, Render(d, RightHanded, v).plan;
      var n := |rh.wires|;
      && |lh.wires| == n >= 1
      && rh.nut.x1 == BoardX && lh.nut.x1 == BoardX + Sum(DiagramWidths(d))
      && lh.nut.x1 == rh.wires[n - 1].x1
      && lh.wires[n - 1].x1 == rh.nut.x1
      && forall i :: 0 <= i < n - 1 ==> lh.wires[i].x1 == rh.wires[n - 2 - i].x1
  {
    var ws := DiagramWidths(d);
    VerticalLines(d, LeftHanded, v);
    VerticalLines(d, RightHanded, v);
    var lh, rh := Render(d, LeftHanded, v).plan, Render(d, RightHanded, v).plan;
    MirroredLines(ws, lh.nut, lh.wires, rh.nut, rh.wires);
  }

  /** The nut and wires of both handednesses, placed as `VerticalLines`
      says, mirror each other. */
  lemma MirroredLines(ws: seq<real>, lhNut: Prim, lhWires: seq<Prim>, rhNut: Prim, rhWires: seq<Prim>)
    requires |ws| >= 1 && |lhWires| == |ws| && |rhWires| == |ws|
    requires lhNut.StrokeLine? && lhNut.x1 == NutX(LeftHanded, Sum(ws))
    requires rhNut.StrokeLine? && rhNut.x1 == NutX(RightHanded, Sum(ws))
    requires forall i :: 0 <= i < |ws| ==> lhWires[i].StrokeLine? && lhWires[i].x1 == WireX(ws, LeftHanded, i)
    requires forall i :: 0 <= i < |ws| ==> rhWires[i].StrokeLine? && rhWires[i].x1 == WireX(ws, RightHanded, i)
    ensures var n := |ws|;
      && rhNut.x1 == BoardX && lhNut.x1 == BoardX + Sum(ws)
      && lhNut.x1 == rhWires[n - 1].x1
      && lhWires[n - 1].x1 == rhNut.x1
      && forall i :: 0 <= i < n - 1 ==> lhWires[i].x1 == rhWires[n - 2 - i].x1
  {
    var n := |ws|;
    WireXsMirror(ws);
    forall i | 0 <= i < n - 1
      ensures lhWires[i].x1 == rhWires[n - 2 - i].x1
    {
      assert lhWires[i].x1 == SlotLeft(ws, n - 1 - i);
      assert rhWires[n - 2 - i].x1 == SlotLeft(ws, n - 1 - i);
    }
  }

  /** Every fret of the window is numbered, in decimal, in the slot that
      holds it; with positive widths that number lies inside the slot. */
  lemma EveryFretNumbered(w: Window, ws: seq<real>, h: Handedness, boardHeight: real, f: int)
    requires |ws| == w.Count() && w.Contains(f)
    ensures var ps, i := FretNumbers(w, ws, h, boardHeight), SlotOfFret(w, h, f);
      && 0 <= i < |ps| && ps[i].FillText? && ps[i].text == IntToString(f)
      && (AllPositive(ws) ==> SlotLeft(ws, i) < ps[i].x < SlotLeft(ws, i + 1))
  {
  }

  /** Slot `i` is numbered with the fret `FretAtSlot` gives it, centred in
      the slot, just below the board. */
  lemma FretNumberAt(d: Diagram, h: Handedness, v: Viewpoint, i: nat)
    requires d.strings != []
    requires i < DiagramWindow(d).Count()
    ensures Render(d, h, v).Drawn?
    ensures var t := Render(d, h, v).plan.fretNumbers[i];
      && t.FillText? && t.text == IntToString(FretAtSlot(DiagramWindow(d), h, i))
      && t.x == SlotCenter(DiagramWidths(d), i)
      && t.y == BoardY + BoardHeight(|d.strings|) + NumberGap
  {
  }

  /** Both handednesses number every slot at the same position, in
      opposite orders: slot `i` of a left-handed diagram shows the number
      of slot `n - 1 - i` of the right-handed one. */
  lemma FretNumbersMirror(d: Diagram, v: Viewpoint, i: nat)
    requires d.strings != []
    requires i < DiagramWindow(d).Count()
    ensures Render(d, LeftHanded, v).Drawn? && Render(d, RightHanded, v).Drawn?
    ensures var lh, rh := Render(d, LeftHanded, v).plan, Render(d, RightHanded, v).plan;
      && lh.fretNumbers[i].x == rh.fretNumbers[i].x
      && lh.fretNumbers[i].text == rh.fretNumbers[DiagramWindow(d).Count() - 1 - i].text
  {
    var w := DiagramWindow(d);
    var j := w.Count() - 1 - i;
    FretNumberAt(d, LeftHanded, v, i);
    FretNumberAt(d, RightHanded, v, i);
    FretNumberAt(d, RightHanded, v, j);
    var fl, fj := FretAtSlot(w, LeftHanded, i), FretAtSlot(w, RightHanded, j);
    assert fj == fl;
  }

  /** Labels and open/muted glyphs sit beside the board: on the left for a
      right-handed player, on the right for a left-handed one; the open `O`
      wins over a mute's `X`. */
  lemma GlyphsAndLabelsBesideBoard(d: Diagram, h: Handedness, v: Viewpoint, s: nat)
    requires s < |d.strings|
    ensures Render(d, h, v).Drawn?
    ensures var p := Render(d, h, v).plan;
      var sd := DisplayStrings(d.strings, v)[s];
      var right := BoardX + Sum(DiagramWidths(d));
      var gx := GlyphX(h, right - BoardX);
      var y := StringY(s);
      && (h == RightHanded ==> p.rows[s].caption.x < BoardX && p.rows[s].caption.align == AlignRight && gx < BoardX)
      && (h == LeftHanded ==> p.rows[s].caption.x > right && p.rows[s].caption.align == AlignLeft && gx > right)
      && (sd.open ==> p.marks[s] == [FillCircle(gx, y, OpenRadius, OpenInk), FillText("O", gx, y, AlignCenter, BaselineMiddle, MarkerTextInk)])
      && (!sd.open && sd.muted ==> p.marks[s] == [FillText("X", gx, y, AlignCenter, BaselineMiddle, MutedInk)])
  {
    BoardWidthPositive(DiagramWidths(d));
  }

  /** The canvas is the board plus the padding on every side and the room
      for labels on both sides, and the board lies strictly inside it. */
  lemma CanvasExtent(d: Diagram, h: Handedness, v: Viewpoint)
    requires d.strings != []
    ensures Render(d, h, v).Drawn?
    ensures var p, bw := Render(d, h, v).plan, Sum(DiagramWidths(d));
      && p.width == bw + 2.0 * Padding + 2.0 * SidePadding
      && p.height == BoardHeight(|d.strings|) + 2.0 * Padding
      && p.backdrop == FillRect(0.0, 0.0, p.width, p.height, BackgroundInk)
      && p.board == FillRect(BoardX, BoardY, bw, BoardHeight(|d.strings|), FretboardInk)
      && 0.0 < BoardX && 0.0 < bw && BoardX + bw < p.width
      && 0.0 < BoardY && BoardY + BoardHeight(|d.strings|) < p.height
  {
    var ws := DiagramWidths(d);
    BoardWidthPositive(ws);
    var r := Render(d, h, v);
    assert r.Drawn?;
    var p := r.plan;
    var bw := Sum(ws);
    assert p.width == bw + 2.0 * Padding + 2.0 * SidePadding;
    assert p.height == BoardHeight(|d.strings|) + 2.0 * Padding;
  }

  /** Positive slot widths make a board of positive width. */
  lemma BoardWidthPositive(ws: seq<real>)
    requires |ws| > 0 && AllPositive(ws)
    ensures Sum(ws) > 0.0
  {
    assert ws[..|ws|] == ws;
    PrefixSumIncreasing(ws, 0, |ws|);
  }

  /** Every string line, label and glyph lies on the canvas. */
  lemma StringsOnCanvas(d: Diagram, h: Handedness, v: Viewpoint, s: nat)
    requires s < |d.strings|
    ensures Render(d, h, v).Drawn?
    ensures var p := Render(d, h, v).plan;
      && 0.0 < p.rows[s].caption.x < p.width
      && 0.0 < GlyphX(h, Sum(DiagramWidths(d))) < p.width
      && 0.0 < StringY(s) < p.height
  {
    CanvasExtent(d, h, v);
  }

  /** Every fret number sits below the board, horizontally inside it, and on
      the canvas. */
  lemma FretNumbersOnCanvas(d: Diagram, h: Handedness, v: Viewpoint, i: nat)
    requires d.strings != [] && i < DiagramWindow(d).Count()
    ensures Render(d, h, v).Drawn?
    ensures var p, bw := Render(d, h, v).plan, Sum(DiagramWidths(d));
      && BoardX < p.fretNumbers[i].x < BoardX + bw
      && BoardY + BoardHeight(|d.strings|) < p.fretNumbers[i].y < p.height
  {
    var ws := DiagramWidths(d);
    CanvasExtent(d, h, v);
    FretNumberAt(d, h, v, i);
    SlotInsideBoard(ws, i);
  }

  /** Every marker disc is centred horizontally inside the board. */
  lemma MarkersOnBoard(d: Diagram, h: Handedness, v: Viewpoint, s: nat, j: nat)
    requires s < |d.strings|
    ensures Render(d, h, v).Drawn?
    ensures var p, bw := Render(d, h, v).plan, Sum(DiagramWidths(d));
      j < |p.marks[s]| && p.marks[s][j].FillCircle? && p.marks[s][j].ink == MarkerInk ==>
        BoardX < p.marks[s][j].cx < BoardX + bw
  {
    var ws, w := DiagramWidths(d), DiagramWindow(d);
    var sd := DisplayStrings(d.strings, v)[s];
    var ms := Render(d, h, v).plan.marks[s];
    if !sd.open && !sd.muted {
      assert ms == PairMarks(sd.pairs, w, ws, h, StringY(s));
      MarkerCentres(sd.pairs, w, ws, h, StringY(s));
      if j < |ms| && ms[j].FillCircle? {
        var i :| 0 <= i < |ws| && ms[j].cx == SlotCenter(ws, i);
        SlotInsideBoard(ws, i);
      }
    }
  }

  /** Every marker disc of a string is centred on some slot of the window. */
  lemma {:induction false} MarkerCentres(ps: seq<Parse.Pair>, w: Window, ws: seq<real>, h: Handedness, y: real)
    requires |ws| == w.Count()
    ensures forall j :: 0 <= j < |PairMarks(ps, w, ws, h, y)| && PairMarks(ps, w, ws, h, y)[j].FillCircle? ==>
      exists i :: 0 <= i < |ws| && PairMarks(ps, w, ws, h, y)[j].cx == SlotCenter(ws, i)
    decreases |ps|
  {
    if ps != [] {
      var here := PairMark(ps[0], w, ws, h, y);
      var rest := PairMarks(ps[1..], w, ws, h, y);
      MarkerCentres(ps[1..], w, ws, h, y);
      var ms := here + rest;
      assert PairMarks(ps, w, ws, h, y) == ms;
      forall j | 0 <= j < |ms| && ms[j].FillCircle?
        ensures exists i :: 0 <= i < |ws| && ms[j].cx == SlotCenter(ws, i)
      {
        if j < |here| {
          var i := SlotOfFret(w, h, ps[0].fret);
          assert ms[j].cx == SlotCenter(ws, i);
        } else {
          assert ms[j] == rest[j - |here|];
        }
      }
    }
  }

  /** A parsed fretboard never shows an open or muted glyph: each string
      draws exactly its pairs' markers, and nothing but markers. */
  lemma ParsedFretboardShowsOnlyMarkers(fb: Parse.Fretboard, h: Handedness, v: Viewpoint, s: nat)
    requires s < |fb.strings|
    ensures Render(FromParsed(fb), h, v).Drawn?
    ensures var p := Render(FromParsed(fb), h, v).plan;
      var k := OriginalIndex(|fb.strings|, v, s);
      && |p.marks[s]| == 2 * |fb.strings[k].pairs|
      && forall j :: 0 <= j < |p.marks[s]| ==> p.marks[s][j].ink == MarkerInk || p.marks[s][j].ink == MarkerTextInk
  {
    var d := FromParsed(fb);
    var sd := DisplayStrings(d.strings, v)[s];
    var k := OriginalIndex(|fb.strings|, v, s);
    assert sd == d.strings[k];
    var ms := PairMarks(sd.pairs, DiagramWindow(d), DiagramWidths(d), h, StringY(s));
    assert Render(d, h, v).plan.marks[s] == ms;
    if |sd.pairs| > 0 {
      PairMarksOfString(d, h, v, s, 0);
    } else {
      assert ms == [];
    }
  }

  /** The title is drawn, centred on the canvas, exactly when it is not
      blank; a diagram with no strings draws nothing at all. */
  lemma TitleOnlyWhenNotBlank(d: Diagram, h: Handedness, v: Viewpoint)
    ensures Render(d, h, v).Cleared? <==> d.strings == []
    ensures d.strings != [] ==> var p := Render(d, h, v).plan;
      && (p.title == [] <==> IsBlank(d.title))
      && (p.title != [] ==> p.title == [FillText(d.title, p.width / 2.0, TitleY, AlignCenter, BaselineTop, LabelInk)])
  {
  }

  /** The drawing order: backdrop, board and nut first, then the wires, a
      line and a caption per string, the fret numbers, the markers, and the
      title last, over everything else. */
  lemma PrimsInOrder(p: Plan)
    ensures |p.Prims()| == 3 + |p.wires| + 2 * |p.rows| + |p.fretNumbers| + |Flatten(p.marks)| + |p.title|
    ensures p.Prims()[..3] == [p.backdrop, p.board, p.nut]
    ensures p.Prims()[3 .. 3 + |p.wires|] == p.wires
    ensures var k := 3 + |p.wires|;
      p.Prims()[k .. k + 2 * |p.rows|] == Flatten(p.RowPrims())
    ensures var k := 3 + |p.wires| + 2 * |p.rows|;
      p.Prims()[k .. k + |p.fretNumbers|] == p.fretNumbers
    ensures var k := 3 + |p.wires| + 2 * |p.rows| + |p.fretNumbers|;
      p.Prims()[k .. k + |Flatten(p.marks)|] == Flatten(p.marks)
    ensures p.Prims()[|p.Prims()| - |p.title| ..] == p.title
  {
    var rows := p.RowPrims();
    FlattenUniformLength(rows, 2);
    SixParts([p.backdrop, p.board, p.nut], p.wires, Flatten(rows), p.fretNumbers, Flatten(p.marks), p.title);
  }
}

=== FILE: parse.dfy ===
/** The fretboard notation parser and validator: per-string text of
    `fret[,finger]` tokens becomes a titled list of labelled strings, or the
    first error found. */
module Parse {
  import opened Results
  import opened SeqMath
  import opened Text

  const LabelLimit: nat := 3
  const TitleLimit: nat := 32
  const FingerLimit: nat := 2
  const MaxFretSpan: int := 9

  /** One played position: a fret number and a free-form finger mark. */
  datatype Pair = Pair(fret: int, finger: string)

  /** The two inputs of one string row: its label and its raw fret/finger text. */
  datatype StringInput = StringInput(name: string, text: string)

  datatype ParsedString = ParsedString(name: string, pairs: seq<Pair>)

  datatype Fretboard = Fretboard(title: string, strings: seq<ParsedString>)

  /** The errors the validator reports; `stringNo` is the 1-based string number
      the message names. */
  datatype ParseError =
    | InvalidFret(fragment: string, stringNo: nat)
    | FretOutOfRange(fragment: string, stringNo: nat)
    | DuplicateFret(fret: int, stringNo: nat)
    | ExcessiveSpan(diff: int)

  /** What one token contributes to its string. */
  datatype TokenStep = Skip | Note(pair: Pair) | Reject(error: ParseError)

  /** The fret numbers of a list of pairs, in order. */
  function Frets(ps: seq<Pair>): (fs: seq<int>)
    ensures |fs| == |ps|
    ensures forall i :: 0 <= i < |ps| ==> fs[i] == ps[i].fret
  {
    seq(|ps|, i requires 0 <= i < |ps| => ps[i].fret)
  }

  /** Every fret number of every string, strings in order. */
  function AllFrets(ss: seq<ParsedString>): seq<int>
  {
    if ss == [] then [] else Frets(ss[0].pairs) + AllFrets(ss[1..])
  }

  predicate IsOpenKeyword(tok: string)
  {
    Lowered(tok) == "open"
  }

  /** One or two decimal digits and nothing else. */
  predicate IsFretShape(p: string)
  {
    1 <= |p| <= 2 && AllDigits(p)
  }

  /** The part of a token before its first comma. */
  function FretPart(tok: string): string
  {
    Split(tok, ',')[0]
  }

  /** The part of a token after its first comma, later commas kept. */
  function FingerText(tok: string): string
  {
    Join(Split(tok, ',')[1..], ',')
  }

  /** The fret part is the comma-free head of the token, and the finger text is
      everything after the first comma (empty when there is none). */
  lemma FirstCommaSplit(tok: string)
    ensures ',' !in FretPart(tok)
    ensures ',' !in tok ==> FretPart(tok) == tok && FingerText(tok) == ""
    ensures ',' in tok ==> tok == FretPart(tok) + [','] + FingerText(tok)
  {
    var parts := Split(tok, ',');
    JoinSplit(tok, ',');
    if ',' in tok {
      assert Join(parts, ',') == parts[0] + [','] + Join(parts[1..], ',');
    }
  }

  /** A one- or two-digit fret text is at most 99, and it is zero only when it
      is `0` or `00`. */
  lemma FretShapeValue(p: string)
    requires IsFretShape(p)
    ensures DigitsValue(p) <= 99
    ensures DigitsValue(p) == 0 <==> p == "0" || p == "00"
  {
    if |p| == 2 {
      assert p[..1][..0] == [];
    } else {
      assert p[..0] == [];
    }
  }

  /** One token of a string's text, checked against the frets already seen on
      that string. */
  function ParseToken(tok: string, seen: seq<int>, stringNo: nat): (r: TokenStep)
    ensures r.Skip? <==> IsOpenKeyword(tok)
    ensures r.Reject? && r.error.InvalidFret? <==> !IsOpenKeyword(tok) && !IsFretShape(FretPart(tok))
    ensures r.Reject? && r.error.FretOutOfRange? ==> r.error.fragment == "0" || r.error.fragment == "00"
    ensures !IsOpenKeyword(tok) && IsFretShape(FretPart(tok)) && DigitsValue(FretPart(tok)) == 0 ==>
      r == Reject(FretOutOfRange(FretPart(tok), stringNo))
    ensures r.Reject? && r.error.DuplicateFret? <==>
      !IsOpenKeyword(tok) && IsFretShape(FretPart(tok)) && 1 <= DigitsValue(FretPart(tok)) && DigitsValue(FretPart(tok)) in seen
    ensures r.Reject? && r.error.DuplicateFret? ==> r.error.fret == DigitsValue(FretPart(tok))
    ensures r.Reject? && r.error.FretOutOfRange? ==> r.error.fragment == FretPart(tok)
    ensures r.Note? <==>
      !IsOpenKeyword(tok) && IsFretShape(FretPart(tok)) && 1 <= DigitsValue(FretPart(tok)) && DigitsValue(FretPart(tok)) !in seen
    ensures r.Note? ==> r.pair == Pair(DigitsValue(FretPart(tok)), Truncate(FingerText(tok), FingerLimit))
    ensures r.Reject? ==> !r.error.ExcessiveSpan? && r.error.stringNo == stringNo
    ensures r.Note? ==> 1 <= r.pair.fret <= 99 && r.pair.fret !in seen
    ensures r.Note? ==> |r.pair.finger| <= FingerLimit && r.pair.finger <= FingerText(tok)
  {
    if IsOpenKeyword(tok) then Skip
    else
      var fp := FretPart(tok);
      if !IsFretShape(fp) then Reject(InvalidFret(fp, stringNo))
      else
        var v := DigitsValue(fp);
        FretShapeValue(fp);
        if v < 1 || v > 99 then Reject(FretOutOfRange(fp, stringNo))
        else if v in seen then Reject(DuplicateFret(v, stringNo))
        else Note(Pair(v, Truncate(FingerText(tok), FingerLimit)))
  }

  /** The bounds every stored pair respects. */
  predicate ValidPair(p: Pair)
  {
    1 <= p.fret <= 99 && |p.finger| <= FingerLimit
  }

  predicate ValidPairs(ps: seq<Pair>)
  {
    forall i :: 0 <= i < |ps| ==> ValidPair(ps[i])
  }

  lemma AppendPair(acc: seq<Pair>, p: Pair)
    ensures Distinct(Frets(acc)) && p.fret !in Frets(acc) ==> Distinct(Frets(acc + [p]))
  {
    if !(Distinct(Frets(acc)) && p.fret !in Frets(acc)) {
      return;
    }
    var fs := Frets(acc + [p]);
    forall i, j | 0 <= i < j < |fs|
      ensures fs[i] != fs[j]
    {
      if j == |acc| {
        assert fs[i] == Frets(acc)[i];
      } else {
        assert fs[i] == Frets(acc)[i] && fs[j] == Frets(acc)[j];
      }
    }
  }

  /** The tokens of one string, left to right, stopping at the first error. */
  function ParseTokens(toks: seq<string>, acc: seq<Pair>, stringNo: nat): (r: Result<seq<Pair>, ParseError>)
    ensures r.Ok? ==> acc <= r.value
    ensures r.Ok? && ValidPairs(acc) ==> ValidPairs(r.value)
    ensures r.Ok? && Distinct(Frets(acc)) ==> Distinct(Frets(r.value))
    ensures r.Err? ==> !r.error.ExcessiveSpan? && r.error.stringNo == stringNo
    ensures r.Err? && r.error.FretOutOfRange? ==> r.error.fragment == "0" || r.error.fragment == "00"
    decreases |toks|
  {
    if toks == [] then Ok(acc)
    else
      match ParseToken(toks[0], Frets(acc), stringNo)
      case Skip => ParseTokens(toks[1..], acc, stringNo)
      case Note(p) =>
        AppendPair(acc, p);
        ParseTokens(toks[1..], acc + [p], stringNo)
      case Reject(e) => Err(e)
  }

  /** A string whose pairs are in range, carry short finger marks, and never
      repeat a fret. */
  predicate WellFormedString(s: ParsedString)
  {
    |s.name| <= LabelLimit && ValidPairs(s.pairs) && Distinct(Frets(s.pairs))
  }

  /** All string rows in order; the first row with an error ends the parse. */
  function ParseStrings(ins: seq<StringInput>, stringNo: nat): (r: Result<seq<ParsedString>, ParseError>)
    ensures r.Ok? ==> |r.value| == |ins|
    ensures r.Ok? ==> forall i :: 0 <= i < |ins| ==>
      r.value[i].name == Truncate(ins[i].name, LabelLimit) && WellFormedString(r.value[i])
    ensures r.Err? ==> !r.error.ExcessiveSpan? && stringNo <= r.error.stringNo < stringNo + |ins|
    ensures r.Err? && r.error.FretOutOfRange? ==> r.error.fragment == "0" || r.error.fragment == "00"
    decreases |ins|
  {
    if ins == [] then Ok([])
    else
      match ParseTokens(Tokens(ins[0].text), [], stringNo)
      case Err(e) => Err(e)
      case Ok(pairs) =>
        match ParseStrings(ins[1..], stringNo + 1)
        case Err(e) => Err(e)
        case Ok(rest) => Ok([ParsedString(Truncate(ins[0].name, LabelLimit), pairs)] + rest)
  }

  /** The invariant of a validated fretboard: a short title, well-formed
      strings, and all frets of all strings within nine of each other. */
  ghost predicate ValidFretboard(fb: Fretboard)
  {
    && |fb.title| <= TitleLimit
    && (forall i :: 0 <= i < |fb.strings| ==> WellFormedString(fb.strings[i]))
    && SpreadAtMost(AllFrets(fb.strings), MaxFretSpan)
  }

  /** Parses and validates one fretboard: a title and its string rows. */
  function ParseFretboard(title: string, ins: seq<StringInput>): (r: Result<Fretboard, ParseError>)
    ensures r.Ok? ==> ValidFretboard(r.value)
    ensures r.Ok? ==> r.value.title <= title && |r.value.title| == (if |title| <= TitleLimit then |title| else TitleLimit)
    ensures r.Ok? ==> |r.value.strings| == |ins| && forall i :: 0 <= i < |ins| ==>
      r.value.strings[i].name <= ins[i].name &&
      |r.value.strings[i].name| == (if |ins[i].name| <= LabelLimit then |ins[i].name| else LabelLimit)
    ensures r.Err? && r.error.ExcessiveSpan? ==> r.error.diff > MaxFretSpan
    ensures r.Err? && !r.error.ExcessiveSpan? ==> 1 <= r.error.stringNo <= |ins|
    ensures r.Err? && r.error.FretOutOfRange? ==> r.error.fragment == "0" || r.error.fragment == "00"
  {
    CheckSpan(title, ParseStrings(ins, 1))
  }

  /** The final step: a row error passes through; otherwise the frets of all
      strings together must lie within `MaxFretSpan` of each other. */
  function CheckSpan(title: string, parsed: Result<seq<ParsedString>, ParseError>): (r: Result<Fretboard, ParseError>)
    ensures parsed.Err? ==> r == Err(parsed.error)
    ensures parsed.Ok? && r.Ok? ==> r.value == Fretboard(Truncate(title, TitleLimit), parsed.value)
    ensures parsed.Ok? && r.Ok? ==> SpreadAtMost(AllFrets(parsed.value), MaxFretSpan)
    ensures parsed.Ok? && r.Err? ==> var all := AllFrets(parsed.value);
      |all| > 0 && r.error == ExcessiveSpan(Max(all) - Min(all)) && r.error.diff > MaxFretSpan
  {
    match parsed
    case Err(e) => Err(e)
    case Ok(ss) =>
      var all := AllFrets(ss);
      if |all| > 0 && Max(all) - Min(all) > MaxFretSpan then
        Err(ExcessiveSpan(Max(all) - Min(all)))
      else
        SpreadIsMaxMinusMin(all, MaxFretSpan);
        Ok(Fretboard(Truncate(title, TitleLimit), ss))
  }
}

=== FILE: parse_examples.dfy ===
/** Concrete inputs whose outcome the parser's code fixes, including the
    corner cases of the grammar the code implements. A title left as a
    parameter means the example holds for every title. */
module ParseExamples {
  import opened Results
  import opened SeqMath
  import opened Text
  import opened Parse

  /** A token `fret,finger` without further commas splits into its two parts. */
  lemma TokenParts(fret: string, finger: string)
    requires ',' !in fret && ',' !in finger
    ensures FretPart(fret + [','] + finger) == fret
    ensures FingerText(fret + [','] + finger) == finger
  {
    assert Join([fret, finger], ',') == fret + [','] + finger;
    SplitJoin([fret, finger], ',');
  }

  lemma SingleToken(t: string)
    requires IsWord(t)
    ensures Tokens(t) == [t]
  {
    TokensOfJoinedWords([t]);
  }

  /** Rows that parse, with frets within the span, give a fretboard. */
  lemma Accepted(title: string, ins: seq<StringInput>, ss: seq<ParsedString>)
    requires ParseStrings(ins, 1) == Ok(ss)
    requires |AllFrets(ss)| == 0 || Max(AllFrets(ss)) - Min(AllFrets(ss)) <= MaxFretSpan
    ensures ParseFretboard(title, ins) == Ok(Fretboard(Truncate(title, TitleLimit), ss))
  {
    var r := ParseFretboard(title, ins);
    assert r.Ok? && r.value == Fretboard(Truncate(title, TitleLimit), ss);
  }

  /** Two words separated by one space are the two tokens. */
  lemma TwoWords(s: string, a: string, b: string)
    requires IsWord(a) && IsWord(b) && s == a + " " + b
    ensures Tokens(s) == [a, b]
  {
    assert JoinWords([a, b]) == a + " " + JoinWords([b]);
    TokensOfJoinedWords([a, b]);
  }

  /** A `fret,finger` token with a fresh, in-range fret is a note. */
  lemma FretFingerToken(tok: string, fret: string, finger: string, v: int, seen: seq<int>, no: nat)
    requires tok == fret + [','] + finger && ',' !in fret && ',' !in finger
    requires IsFretShape(fret) && DigitsValue(fret) == v && 1 <= v <= 99 && v !in seen
    requires |finger| <= FingerLimit
    ensures ParseToken(tok, seen, no) == Note(Pair(v, finger))
  {
    TokenParts(fret, finger);
    assert !IsOpenKeyword(tok) by {
      assert Lowered(tok)[|fret|] == ',';
    }
  }

  /** Two fret tokens that each contribute a pair. */
  lemma TwoTokens(a: string, b: string, p: Pair, q: Pair, no: nat)
    requires ParseToken(a, [], no) == Note(p)
    requires ParseToken(b, [p.fret], no) == Note(q)
    ensures ParseTokens([a, b], [], no) == Ok([p, q])
  {
    assert [a, b][1..] == [b] && [b][1..] == [];
    assert Frets([]) == [];
    assert Frets([p]) == [p.fret];
    assert [] + [p] == [p];
    assert [p] + [q] == [p, q];
    assert ParseTokens([b], [p], no) == ParseTokens([], [p, q], no);
    assert ParseTokens([a, b], [], no) == ParseTokens([b], [p], no);
  }

  /** Rows that parse but spread their frets too far give the span error. */
  lemma Rejected(title: string, ins: seq<StringInput>, ss: seq<ParsedString>, lo: int, hi: int)
    requires ParseStrings(ins, 1) == Ok(ss)
    requires |AllFrets(ss)| > 0 && Min(AllFrets(ss)) == lo && Max(AllFrets(ss)) == hi
    requires hi - lo > MaxFretSpan
    ensures ParseFretboard(title, ins) == Err(ExcessiveSpan(hi - lo))
  {
    SpanRejected(title, ss, lo, hi);
  }

  /** The span check alone: frets further apart than nine are refused with
      their difference. */
  lemma SpanRejected(title: string, ss: seq<ParsedString>, lo: int, hi: int)
    requires |AllFrets(ss)| > 0 && Min(AllFrets(ss)) == lo && Max(AllFrets(ss)) == hi
    requires hi - lo > MaxFretSpan
    ensures CheckSpan(title, Ok(ss)) == Err(ExcessiveSpan(hi - lo))
  {
    SpreadIsMaxMinusMin(AllFrets(ss), MaxFretSpan);
    var r := CheckSpan(title, Ok(ss));
    assert r.Err?;
    var e := r.error;
    assert e.ExcessiveSpan? && e.diff == hi - lo;
  }

  /** A single row, numbered `stringNo`, whose tokens parse to the given pairs. */
  lemma OneRow(row: StringInput, pairs: seq<Pair>, stringNo: nat)
    requires ParseTokens(Tokens(row.text), [], stringNo) == Ok(pairs)
    ensures ParseStrings([row], stringNo) == Ok([ParsedString(Truncate(row.name, LabelLimit), pairs)])
  {
    var s := ParsedString(Truncate(row.name, LabelLimit), pairs);
    assert [row][1..] == [] && [row][0] == row;
    assert ParseStrings([], stringNo + 1) == Ok([]);
    assert [s] + [] == [s];
  }

  /** Two rows whose tokens parse to the given pairs. */
  lemma TwoRows(row1: StringInput, row2: StringInput, p1: seq<Pair>, p2: seq<Pair>)
    requires ParseTokens(Tokens(row1.text), [], 1) == Ok(p1)
    requires ParseTokens(Tokens(row2.text), [], 2) == Ok(p2)
    ensures ParseStrings([row1, row2], 1) == Ok([ParsedString(Truncate(row1.name, LabelLimit), p1),
                                                 ParsedString(Truncate(row2.name, LabelLimit), p2)])
  {
    var s1 := ParsedString(Truncate(row1.name, LabelLimit), p1);
    var s2 := ParsedString(Truncate(row2.name, LabelLimit), p2);
    assert [row1, row2][1..] == [row2] && [row1, row2][0] == row1;
    OneRow(row2, p2, 2);
    assert [s1] + [s2] == [s1, s2];
  }

  /** A lone fret with no finger. */
  lemma OneFret(t: string, v: int, no: nat)
    requires IsFretShape(t) && DigitsValue(t) == v && 1 <= v <= 99
    ensures ParseTokens(Tokens(t), [], no) == Ok([Pair(v, "")])
  {
    HundredIsOneWord();
    SingleToken(t);
    FirstCommaSplit(t);
    assert !IsOpenKeyword(t);
    assert [t][1..] == [];
    assert [] + [Pair(v, "")] == [Pair(v, "")];
  }

  /** A word built from a comma-free fret part, a comma and a finger part. */
  lemma FretFingerWord(fret: string, finger: string)
    requires IsFretShape(fret) && forall i :: 0 <= i < |finger| ==> !IsSpace(finger[i])
    ensures IsWord(fret + [','] + finger)
  {
    var t := fret + [','] + finger;
    forall i | 0 <= i < |t|
      ensures !IsSpace(t[i])
    {
      if i > |fret| {
        assert t[i] == finger[i - |fret| - 1];
      }
    }
  }

  /** The row text `a b` of two `fret,finger` words splits into those words,
      and the first word is a note. */
  lemma FingeredWords(text: string, f1: string, g1: string, v1: int, f2: string, g2: string)
    requires text == (f1 + [','] + g1) + " " + (f2 + [','] + g2)
    requires IsFretShape(f1) && DigitsValue(f1) == v1 && 1 <= v1 <= 99
    requires IsFretShape(f2)
    requires ',' !in g1 && ',' !in g2 && |g1| <= FingerLimit
    requires forall i :: 0 <= i < |g1| ==> !IsSpace(g1[i])
    requires forall i :: 0 <= i < |g2| ==> !IsSpace(g2[i])
    ensures Tokens(text) == [f1 + [','] + g1, f2 + [','] + g2]
    ensures ParseToken(f1 + [','] + g1, [], 1) == Note(Pair(v1, g1))
  {
    var a, b := f1 + [','] + g1, f2 + [','] + g2;
    assert ',' !in f1 && ',' !in f2;
    FretFingerWord(f1, g1);
    FretFingerWord(f2, g2);
    TwoWords(text, a, b);
    FretFingerToken(a, f1, g1, v1, [], 1);
  }

  /** One row holding two `fret,finger` tokens on different frets: two pairs
      in input order. */
  lemma TwoFingeredNotes(ins: seq<StringInput>, f1: string, g1: string, v1: int, f2: string, g2: string, v2: int)
    requires |ins| == 1 && ins[0].text == (f1 + [','] + g1) + " " + (f2 + [','] + g2)
    requires IsFretShape(f1) && DigitsValue(f1) == v1 && 1 <= v1 <= 99
    requires IsFretShape(f2) && DigitsValue(f2) == v2 && 1 <= v2 <= 99
    requires ',' !in g1 && ',' !in g2 && |g1| <= FingerLimit && |g2| <= FingerLimit
    requires forall i :: 0 <= i < |g1| ==> !IsSpace(g1[i])
    requires forall i :: 0 <= i < |g2| ==> !IsSpace(g2[i])
    requires v1 != v2
    ensures ParseStrings(ins, 1) == Ok([ParsedString(Truncate(ins[0].name, LabelLimit), [Pair(v1, g1), Pair(v2, g2)])])
  {
    var a, b := f1 + [','] + g1, f2 + [','] + g2;
    FingeredWords(ins[0].text, f1, g1, v1, f2, g2);
    assert ',' !in f2;
    FretFingerToken(b, f2, g2, v2, [v1], 1);
    TwoTokens(a, b, Pair(v1, g1), Pair(v2, g2), 1);
    assert ins == [ins[0]];
    OneRow(ins[0], [Pair(v1, g1), Pair(v2, g2)], 1);
  }

  /** One row holding two `fret,finger` tokens on the same fret: the
      duplicate error for string 1. */
  lemma TwoFingeredDuplicate(ins: seq<StringInput>, f1: string, g1: string, v1: int, f2: string, g2: string)
    requires |ins| == 1 && ins[0].text == (f1 + [','] + g1) + " " + (f2 + [','] + g2)
    requires IsFretShape(f1) && DigitsValue(f1) == v1 && 1 <= v1 <= 99
    requires IsFretShape(f2) && DigitsValue(f2) == v1
    requires ',' !in g1 && ',' !in g2 && |g1| <= FingerLimit
    requires forall i :: 0 <= i < |g1| ==> !IsSpace(g1[i])
    requires forall i :: 0 <= i < |g2| ==> !IsSpace(g2[i])
    ensures ParseStrings(ins, 1) == Err(DuplicateFret(v1, 1))
  {
    var a, b := f1 + [','] + g1, f2 + [','] + g2;
    FingeredWords(ins[0].text, f1, g1, v1, f2, g2);
    RepeatedFret(b, f2, g2, Pair(v1, g1));
    assert ParseTokens([a, b], [], 1) == ParseTokens([b], [Pair(v1, g1)], 1) by {
      assert [a, b][1..] == [b];
      assert Frets([]) == [];
      assert [] + [Pair(v1, g1)] == [Pair(v1, g1)];
    }
    var r := ParseStrings(ins, 1);
    assert r.Err? && r.error == DuplicateFret(v1, 1);
  }

  /** A `fret,finger` token repeating the fret of the pair before it is a
      duplicate. */
  lemma RepeatedFret(b: string, f2: string, g2: string, p: Pair)
    requires b == f2 + [','] + g2 && ',' !in g2
    requires IsFretShape(f2) && DigitsValue(f2) == p.fret && 1 <= p.fret <= 99
    ensures ParseTokens([b], [p], 1) == Err(DuplicateFret(p.fret, 1))
  {
    assert ',' !in f2;
    TokenParts(f2, g2);
    assert !IsOpenKeyword(b) by {
      assert Lowered(b)[|f2|] == ',';
    }
    assert Frets([p]) == [p.fret];
    assert ParseToken(b, [p.fret], 1) == Reject(DuplicateFret(p.fret, 1));
  }

  lemma TwoFretsOneRow(ss: seq<ParsedString>, v1: int, v2: int)
    requires |ss| == 1 && Frets(ss[0].pairs) == [v1, v2]
    ensures AllFrets(ss) == [v1, v2]
    ensures Min(AllFrets(ss)) == (if v1 <= v2 then v1 else v2)
    ensures Max(AllFrets(ss)) == (if v1 <= v2 then v2 else v1)
  {
    assert ss[1..] == [];
    assert AllFrets(ss) == [v1, v2] + [];
    assert [v1, v2][1..] == [v2];
  }

  /** The row `3,1 5,2` parses to two pairs in input order. */
  lemma ThreeFiveRow()
    ensures ParseStrings([StringInput("e", "3,1 5,2")], 1) == Ok([ParsedString("e", [Pair(3, "1"), Pair(5, "2")])])
  {
    var ins := [StringInput("e", "3,1 5,2")];
    assert DigitsValue("3") == 3 && DigitsValue("5") == 5;
    assert ins[0].text == ("3" + [','] + "1") + " " + ("5" + [','] + "2");
    TwoFingeredNotes(ins, "3", "1", 3, "5", "2", 5);
  }

  /** `3,1 5,2` gives two pairs in input order. */
  lemma TwoNotesInOrder()
    ensures ParseFretboard("C", [StringInput("e", "3,1 5,2")]) == Ok(Fretboard("C", [ParsedString("e", [Pair(3, "1"), Pair(5, "2")])]))
  {
    var ins := [StringInput("e", "3,1 5,2")];
    var ss := [ParsedString("e", [Pair(3, "1"), Pair(5, "2")])];
    ThreeFiveRow();
    ThreeFiveWithinSpan();
    Accepted("C", ins, ss);
    assert Truncate("C", TitleLimit) == "C";
  }

  /** Frets 3 and 5 on one string are two apart. */
  lemma ThreeFiveWithinSpan()
    ensures var ss := [ParsedString("e", [Pair(3, "1"), Pair(5, "2")])];
      |AllFrets(ss)| == 0 || Max(AllFrets(ss)) - Min(AllFrets(ss)) <= MaxFretSpan
  {
    var ss := [ParsedString("e", [Pair(3, "1"), Pair(5, "2")])];
    assert Frets(ss[0].pairs) == [3, 5];
    TwoFretsOneRow(ss, 3, 5);
  }

  /** A row error of the only row is the error of the whole parse. */
  lemma OnlyRowFails(title: string, ins: seq<StringInput>, e: ParseError)
    requires |ins| == 1 && ParseTokens(Tokens(ins[0].text), [], 1) == Err(e)
    ensures ParseFretboard(title, ins) == Err(e)
  {
    var r := ParseStrings(ins, 1);
    assert r.Err? && r.error == e;
  }

  /** A lone token the parser rejects makes its row fail with that error. */
  lemma LoneTokenFails(t: string, e: ParseError)
    requires Tokens(t) == [t] && ParseToken(t, [], 1) == Reject(e)
    ensures ParseTokens(Tokens(t), [], 1) == Err(e)
  {
    assert Frets([]) == [];
  }

  /** The same fret twice on one string is a duplicate. */
  lemma DuplicateOnOneString(title: string)
    ensures ParseFretboard(title, [StringInput("e", "3,1 3,2")]) == Err(DuplicateFret(3, 1))
  {
    var ins := [StringInput("e", "3,1 3,2")];
    assert ParseStrings(ins, 1) == Err(DuplicateFret(3, 1)) by {
      assert DigitsValue("3") == 3;
      assert ins[0].text == ("3" + [','] + "1") + " " + ("3" + [','] + "2");
      TwoFingeredDuplicate(ins, "3", "1", 3, "3", "2");
    }
    var r := ParseFretboard(title, ins);
    assert r.Err? && r.error == DuplicateFret(3, 1);
  }

  /** A three-digit fret fails the digit-shape check, not the range check. */
  lemma HundredIsInvalidShape(title: string)
    ensures ParseFretboard(title, [StringInput("e", "100,1")]) == Err(InvalidFret("100", 1))
  {
    var ins := [StringInput("e", "100,1")];
    var t := ins[0].text;
    assert ParseToken(t, [], 1) == Reject(InvalidFret("100", 1)) by {
      TokenParts("100", "1");
      assert t == "100" + [','] + "1";
      assert !IsOpenKeyword(t);
    }
    HundredIsOneWord();
    SingleToken(t);
    LoneTokenFails(t, InvalidFret("100", 1));
    OnlyRowFails(title, ins, InvalidFret("100", 1));
  }

  /** The text `100,1` is one word. */
  lemma HundredIsOneWord()
    ensures IsWord("100,1")
  {
  }

  /** `x` has no muted meaning: it is an invalid fret. */
  lemma MutedMarkIsInvalidFret(title: string)
    ensures ParseFretboard(title, [StringInput("e", "x")]) == Err(InvalidFret("x", 1))
  {
    var ins := [StringInput("e", "x")];
    var t := ins[0].text;
    assert ParseToken(t, [], 1) == Reject(InvalidFret("x", 1)) by {
      FirstCommaSplit(t);
    }
    SingleToken(t);
    LoneTokenFails(t, InvalidFret("x", 1));
    OnlyRowFails(title, ins, InvalidFret("x", 1));
  }

  /** The `open` keyword, in any case, yields a string with no pairs. */
  lemma OpenKeywordYieldsNoPairs()
    ensures ParseFretboard("", [StringInput("A", "OPEN")]) == Ok(Fretboard("", [ParsedString("A", [])]))
  {
    var ins := [StringInput("A", "OPEN")];
    var ss := [ParsedString("A", [])];
    OpenRow();
    assert AllFrets(ss) == [];
    Accepted("", ins, ss);
  }

  /** The row `OPEN` alone parses to a string with no pairs. */
  lemma OpenRow()
    ensures ParseStrings([StringInput("A", "OPEN")], 1) == Ok([ParsedString("A", [])])
  {
    var ins := [StringInput("A", "OPEN")];
    var t := ins[0].text;
    SingleToken(t);
    assert Lowered(t) == "open";
    assert ParseToken(t, Frets([]), 1).Skip?;
    assert [t][1..] == [];
    var r := ParseTokens([t], [], 1);
    assert r == ParseTokens([], [], 1);
    assert r.Ok? && r.value == [];
    OneRow(ins[0], [], 1);
  }

  /** Two rows holding one bare fret each: accepted exactly when the frets are
      at most nine apart. */
  lemma TwoSingleFretRows(title: string, ins: seq<StringInput>, v1: int, v2: int)
    requires |ins| == 2
    requires IsFretShape(ins[0].text) && DigitsValue(ins[0].text) == v1 && 1 <= v1 <= 99
    requires IsFretShape(ins[1].text) && DigitsValue(ins[1].text) == v2 && 1 <= v2 <= 99
    ensures var diff := if v1 <= v2 then v2 - v1 else v1 - v2;
      var r := ParseFretboard(title, ins);
      && (diff > MaxFretSpan ==> r.Err? && r.error == ExcessiveSpan(diff))
      && (diff <= MaxFretSpan ==> r.Ok? && r.value == Fretboard(Truncate(title, TitleLimit),
          [ParsedString(Truncate(ins[0].name, LabelLimit), [Pair(v1, "")]),
           ParsedString(Truncate(ins[1].name, LabelLimit), [Pair(v2, "")])]))
  {
    var ss := [ParsedString(Truncate(ins[0].name, LabelLimit), [Pair(v1, "")]),
               ParsedString(Truncate(ins[1].name, LabelLimit), [Pair(v2, "")])];
    assert ins == [ins[0], ins[1]];
    SingleFretRows(ins[0], ins[1], v1, v2);
    TwoSingleFrets(ss, v1, v2);
    if v1 <= v2 {
      if v2 - v1 > MaxFretSpan {
        Rejected(title, ins, ss, v1, v2);
      } else {
        Accepted(title, ins, ss);
      }
    } else {
      if v1 - v2 > MaxFretSpan {
        Rejected(title, ins, ss, v2, v1);
      } else {
        Accepted(title, ins, ss);
      }
    }
  }

  /** Two rows holding one bare fret each parse to one pair per string. */
  lemma SingleFretRows(row1: StringInput, row2: StringInput, v1: int, v2: int)
    requires IsFretShape(row1.text) && DigitsValue(row1.text) == v1 && 1 <= v1 <= 99
    requires IsFretShape(row2.text) && DigitsValue(row2.text) == v2 && 1 <= v2 <= 99
    ensures ParseStrings([row1, row2], 1) == Ok([ParsedString(Truncate(row1.name, LabelLimit), [Pair(v1, "")]),
                                                 ParsedString(Truncate(row2.name, LabelLimit), [Pair(v2, "")])])
  {
    OneFret(row1.text, v1, 1);
    OneFret(row2.text, v2, 2);
    TwoRows(row1, row2, [Pair(v1, "")], [Pair(v2, "")]);
  }

  lemma TwoSingleFrets(ss: seq<ParsedString>, v1: int, v2: int)
    requires |ss| == 2 && ss[0].pairs == [Pair(v1, "")] && ss[1].pairs == [Pair(v2, "")]
    ensures AllFrets(ss) == [v1, v2]
    ensures Min(AllFrets(ss)) == (if v1 <= v2 then v1 else v2)
    ensures Max(AllFrets(ss)) == (if v1 <= v2 then v2 else v1)
  {
    assert Frets(ss[0].pairs) == [v1] && Frets(ss[1].pairs) == [v2];
    assert ss[1..][1..] == [];
    assert AllFrets(ss[1..]) == [v2] + [];
    assert AllFrets(ss) == [v1] + [v2];
    assert [v1, v2][1..] == [v2];
  }

  /** Frets 1 and 10 on two strings differ by exactly nine: accepted. */
  lemma SpanOfNineAccepted(title: string)
    ensures ParseFretboard(title, [StringInput("e", "1"), StringInput("B", "10")]).Ok?
  {
    var ins := [StringInput("e", "1"), StringInput("B", "10")];
    assert DigitsValue("1") == 1 && DigitsValue("10") == 10;
    TwoSingleFretRows(title, ins, 1, 10);
  }

  /** Frets 1 and 11 on two strings differ by ten: the span error. */
  lemma SpanOfTenRejected(title: string)
    ensures ParseFretboard(title, [StringInput("e", "1"), StringInput("B", "11")]) == Err(ExcessiveSpan(10))
  {
    var ins := [StringInput("e", "1"), StringInput("B", "11")];
    assert DigitsValue("1") == 1 && DigitsValue("11") == 11;
    TwoSingleFretRows(title, ins, 1, 11);
    var r := ParseFretboard(title, ins);
    assert r.Err? && r.error == ExcessiveSpan(10);
  }
}

=== FILE: parse_properties.dfy ===
/** A declarative reading of the notation, and proofs that the parser accepts
    exactly the inputs it describes and returns exactly the pairs it denotes. */
module ParseProperties {
  import opened Results
  import opened SeqMath
  import opened Text
  import opened Parse

  /** A token the parser accepts on its own: the `open` keyword, or a one- or
      two-digit fret part that is not zero. */
  predicate WellFormedToken(tok: string)
  {
    IsOpenKeyword(tok) || (IsFretShape(FretPart(tok)) && DigitsValue(FretPart(tok)) >= 1)
  }

  predicate AllWellFormed(toks: seq<string>)
  {
    forall k :: 0 <= k < |toks| ==> WellFormedToken(toks[k])
  }

  /** The pair a fret token denotes. */
  function NoteOf(tok: string): Pair
    requires !IsOpenKeyword(tok) && IsFretShape(FretPart(tok))
  {
    Pair(DigitsValue(FretPart(tok)), Truncate(FingerText(tok), FingerLimit))
  }

  /** The pairs a token list denotes: one per token, `open` tokens dropped,
      order kept. */
  function Notes(toks: seq<string>): seq<Pair>
    requires AllWellFormed(toks)
  {
    if toks == [] then []
    else (if IsOpenKeyword(toks[0]) then [] else [NoteOf(toks[0])]) + Notes(toks[1..])
  }

  /** A string text the parser accepts: every token well formed, no fret twice. */
  predicate TextValid(text: string)
  {
    var toks := Tokens(text);
    AllWellFormed(toks) && Distinct(Frets(Notes(toks)))
  }

  /** The strings a fully valid input denotes. */
  function ExpectedStrings(ins: seq<StringInput>): seq<ParsedString>
    requires forall i :: 0 <= i < |ins| ==> TextValid(ins[i].text)
  {
    if ins == [] then []
    else
      assert TextValid(ins[0].text);
      [ParsedString(Truncate(ins[0].name, LabelLimit), Notes(Tokens(ins[0].text)))] + ExpectedStrings(ins[1..])
  }

  /** An input the parser accepts: every string text valid, and all frets of
      all strings within nine of each other. */
  ghost predicate InputValid(ins: seq<StringInput>)
  {
    && (forall i :: 0 <= i < |ins| ==> TextValid(ins[i].text))
    && SpreadAtMost(AllFrets(ExpectedStrings(ins)), MaxFretSpan)
  }

  /** Parsing a token list succeeds exactly when every token is well formed and
      no fret repeats, and then it appends the denoted pairs in token order. */
  lemma {:induction false} ParseTokensMatchesNotes(toks: seq<string>, acc: seq<Pair>, stringNo: nat)
    requires Distinct(Frets(acc))
    ensures ParseTokens(toks, acc, stringNo).Ok? <==>
      AllWellFormed(toks) && Distinct(Frets(acc + Notes(toks)))
    ensures ParseTokens(toks, acc, stringNo).Ok? ==>
      ParseTokens(toks, acc, stringNo).value == acc + Notes(toks)
    decreases |toks|
  {
    if toks == [] {
      assert acc + [] == acc;
    } else {
      var t := toks[0];
      assert AllWellFormed(toks) <==> WellFormedToken(t) && AllWellFormed(toks[1..]);
      match ParseToken(t, Frets(acc), stringNo)
      case Skip =>
        ParseTokensMatchesNotes(toks[1..], acc, stringNo);
        assert WellFormedToken(t);
        assert ParseTokens(toks, acc, stringNo) == ParseTokens(toks[1..], acc, stringNo);
        if AllWellFormed(toks) {
          assert Notes(toks) == [] + Notes(toks[1..]);
          assert [] + Notes(toks[1..]) == Notes(toks[1..]);
        }
      case Note(p) =>
        AppendPair(acc, p);
        ParseTokensMatchesNotes(toks[1..], acc + [p], stringNo);
        NoteExtends(toks, acc, p, stringNo);
      case Reject(e) =>
        if AllWellFormed(toks) {
          RejectMeansRepeat(toks, acc, e, stringNo);
        }
    }
  }

  /** A token that is a note is well formed, denotes that note, and moves it
      from the remaining tokens onto the accumulated pairs. */
  lemma NoteExtends(toks: seq<string>, acc: seq<Pair>, p: Pair, stringNo: nat)
    requires toks != [] && ParseToken(toks[0], Frets(acc), stringNo) == Note(p)
    ensures WellFormedToken(toks[0])
    ensures AllWellFormed(toks) ==> acc + Notes(toks) == (acc + [p]) + Notes(toks[1..])
  {
    NoteIsNoteOf(toks[0], Frets(acc), stringNo, p);
    if AllWellFormed(toks) {
      assert Notes(toks) == [p] + Notes(toks[1..]);
    }
  }

  /** The note the parser reads from a token is the one the token denotes. */
  lemma NoteIsNoteOf(t: string, seen: seq<int>, stringNo: nat, p: Pair)
    requires ParseToken(t, seen, stringNo) == Note(p)
    ensures WellFormedToken(t) && !IsOpenKeyword(t) && IsFretShape(FretPart(t))
    ensures p == NoteOf(t)
  {
    FretShapeValue(FretPart(t));
  }

  /** A well-formed token the parser rejects repeats a fret already seen. */
  lemma RejectMeansRepeat(toks: seq<string>, acc: seq<Pair>, e: ParseError, stringNo: nat)
    requires toks != [] && AllWellFormed(toks)
    requires ParseToken(toks[0], Frets(acc), stringNo) == Reject(e)
    ensures !Distinct(Frets(acc + Notes(toks)))
  {
    var t := toks[0];
    assert WellFormedToken(t);
    FretShapeValue(FretPart(t));
    var v := DigitsValue(FretPart(t));
    assert v in Frets(acc);
    var k :| 0 <= k < |acc| && Frets(acc)[k] == v;
    assert Notes(toks) == [NoteOf(t)] + Notes(toks[1..]);
    var all := Frets(acc + Notes(toks));
    assert all[k] == v && all[|acc|] == v;
  }

  /** The string rows parse exactly when every row's text is valid, and then
      the result is the denoted strings in row order. */
  lemma {:induction false} ParseStringsMatches(ins: seq<StringInput>, stringNo: nat)
    ensures ParseStrings(ins, stringNo).Ok? <==> forall i :: 0 <= i < |ins| ==> TextValid(ins[i].text)
    ensures ParseStrings(ins, stringNo).Ok? ==> ParseStrings(ins, stringNo).value == ExpectedStrings(ins)
    decreases |ins|
  {
    if ins != [] {
      ParseTokensMatchesNotes(Tokens(ins[0].text), [], stringNo);
      if TextValid(ins[0].text) {
        assert [] + Notes(Tokens(ins[0].text)) == Notes(Tokens(ins[0].text));
      }
      ParseStringsMatches(ins[1..], stringNo + 1);
      assert (forall i :: 0 <= i < |ins| ==> TextValid(ins[i].text)) <==>
        TextValid(ins[0].text) && forall i :: 0 <= i < |ins[1..]| ==> TextValid(ins[1..][i].text);
    }
  }

  /** The whole parse succeeds exactly on valid input, and then it returns the
      truncated title and the denoted strings. */
  lemma ParseFretboardCharacterization(title: string, ins: seq<StringInput>)
    ensures ParseFretboard(title, ins).Ok? <==> InputValid(ins)
    ensures ParseFretboard(title, ins).Ok? ==>
      ParseFretboard(title, ins).value == Fretboard(Truncate(title, TitleLimit), ExpectedStrings(ins))
  {
    ParseStringsMatches(ins, 1);
    if forall i :: 0 <= i < |ins| ==> TextValid(ins[i].text) {
      SpreadIsMaxMinusMin(AllFrets(ExpectedStrings(ins)), MaxFretSpan);
    }
  }

  /** A blank string row never causes an error and yields no pairs. */
  lemma BlankTextHasNoPairs(title: string, ins: seq<StringInput>, i: int)
    requires 0 <= i < |ins| && IsBlank(ins[i].text)
    ensures TextValid(ins[i].text)
    ensures ParseFretboard(title, ins).Ok? ==> ParseFretboard(title, ins).value.strings[i].pairs == []
  {
    ParseFretboardCharacterization(title, ins);
    if ParseFretboard(title, ins).Ok? {
      ExpectedStringsAt(ins, i);
    }
  }

  lemma {:induction false} ExpectedStringsAt(ins: seq<StringInput>, i: int)
    requires forall j :: 0 <= j < |ins| ==> TextValid(ins[j].text)
    requires 0 <= i < |ins|
    ensures |ExpectedStrings(ins)| == |ins|
    ensures ExpectedStrings(ins)[i] == ParsedString(Truncate(ins[i].name, LabelLimit), Notes(Tokens(ins[i].text)))
    decreases |ins|
  {
    if i > 0 {
      ExpectedStringsAt(ins[1..], i - 1);
    } else if |ins| > 1 {
      ExpectedStringsAt(ins[1..], 0);
    }
  }

  /** An `open` token can be inserted anywhere in a string's text without
      changing the outcome: it contributes no pair and no error. */
  lemma OpenTokenIgnored(before: seq<string>, after: seq<string>, acc: seq<Pair>, stringNo: nat, tok: string)
    requires IsOpenKeyword(tok)
    ensures ParseTokens(before + [tok] + after, acc, stringNo) == ParseTokens(before + after, acc, stringNo)
  {
    assert before + [tok] + after == before + ([tok] + after);
    ParseTokensConcat(before, [tok] + after, acc, stringNo);
    ParseTokensConcat(before, after, acc, stringNo);
    assert ([tok] + after)[1..] == after;
  }

  /** A fret that appears twice among the tokens of one string is an error. */
  lemma RepeatedFretRejected(title: string, ins: seq<StringInput>, i: int, a: int, b: int)
    requires 0 <= i < |ins|
    requires var toks := Tokens(ins[i].text);
      0 <= a < b < |toks| && !IsOpenKeyword(toks[a]) && !IsOpenKeyword(toks[b]) &&
      FretPart(toks[a]) == FretPart(toks[b])
    ensures ParseFretboard(title, ins).Err?
  {
    ParseFretboardCharacterization(title, ins);
    var toks := Tokens(ins[i].text);
    if AllWellFormed(toks) {
      NotesPosition(toks, a, b);
    }
  }

  /** Two tokens that share a fret part give a note list with a repeated fret. */
  lemma NotesPosition(toks: seq<string>, a: int, b: int)
    requires AllWellFormed(toks)
    requires 0 <= a < b < |toks| && !IsOpenKeyword(toks[a]) && !IsOpenKeyword(toks[b])
    requires FretPart(toks[a]) == FretPart(toks[b])
    ensures !Distinct(Frets(Notes(toks)))
  {
    var ia, ib := NoteIndexes(toks, a, b);
    assert Frets(Notes(toks))[ia] == Frets(Notes(toks))[ib];
  }

  /** Non-`open` tokens at positions a < b denote the pairs at positions
      ia < ib of the note list. */
  lemma {:induction false} NoteIndexes(toks: seq<string>, a: int, b: int) returns (ia: int, ib: int)
    requires AllWellFormed(toks)
    requires 0 <= a < b < |toks| && !IsOpenKeyword(toks[a]) && !IsOpenKeyword(toks[b])
    ensures 0 <= ia < ib < |Notes(toks)|
    ensures Notes(toks)[ia] == NoteOf(toks[a]) && Notes(toks)[ib] == NoteOf(toks[b])
    decreases |toks|
  {
    if a == 0 {
      var k := NoteIndex(toks[1..], b - 1);
      ia, ib := FirstNote(toks, b, k);
    } else {
      var ka, kb := NoteIndexes(toks[1..], a - 1, b - 1);
      ia, ib := ShiftNotes(toks, a, b, ka, kb);
    }
  }

  /** A non-`open` first token's pair heads the note list, ahead of every
      later token's pair. */
  lemma FirstNote(toks: seq<string>, b: int, k: int) returns (ia: int, ib: int)
    requires AllWellFormed(toks)
    requires 0 < b < |toks| && !IsOpenKeyword(toks[0])
    requires !IsOpenKeyword(toks[1..][b - 1])
    requires 0 <= k < |Notes(toks[1..])| && Notes(toks[1..])[k] == NoteOf(toks[1..][b - 1])
    ensures 0 <= ia < ib < |Notes(toks)|
    ensures Notes(toks)[ia] == NoteOf(toks[0]) && Notes(toks)[ib] == NoteOf(toks[b])
  {
    var rest := Notes(toks[1..]);
    NotesCons(toks);
    IndexOfSuffix([NoteOf(toks[0])], rest, k);
    assert toks[1..][b - 1] == toks[b];
    ia, ib := 0, 1 + k;
  }

  /** Positions in the note list of the tokens after the first move up by
      one when the first token is a note. */
  lemma ShiftNotes(toks: seq<string>, a: int, b: int, ka: int, kb: int) returns (ia: int, ib: int)
    requires AllWellFormed(toks)
    requires 0 < a < b < |toks|
    requires !IsOpenKeyword(toks[1..][a - 1]) && !IsOpenKeyword(toks[1..][b - 1])
    requires 0 <= ka < kb < |Notes(toks[1..])|
    requires Notes(toks[1..])[ka] == NoteOf(toks[1..][a - 1]) && Notes(toks[1..])[kb] == NoteOf(toks[1..][b - 1])
    ensures 0 <= ia < ib < |Notes(toks)|
    ensures Notes(toks)[ia] == NoteOf(toks[a]) && Notes(toks)[ib] == NoteOf(toks[b])
  {
    var head := if IsOpenKeyword(toks[0]) then [] else [NoteOf(toks[0])];
    var rest := Notes(toks[1..]);
    NotesCons(toks);
    IndexOfSuffix(head, rest, ka);
    IndexOfSuffix(head, rest, kb);
    assert toks[1..][a - 1] == toks[a] && toks[1..][b - 1] == toks[b];
    ia, ib := |head| + ka, |head| + kb;
  }

  /** A non-`open` token's pair sits at some position of the note list. */
  lemma {:induction false} NoteIndex(toks: seq<string>, b: int) returns (ib: int)
    requires AllWellFormed(toks)
    requires 0 <= b < |toks| && !IsOpenKeyword(toks[b])
    ensures 0 <= ib < |Notes(toks)| && Notes(toks)[ib] == NoteOf(toks[b])
    decreases |toks|
  {
    var head := if IsOpenKeyword(toks[0]) then [] else [NoteOf(toks[0])];
    NotesCons(toks);
    if b == 0 {
      ib := 0;
    } else {
      var k := NoteIndex(toks[1..], b - 1);
      ib := |head| + k;
    }
  }

  /** The note list of a non-empty token list: its first token's note, if
      any, then the rest. */
  lemma NotesCons(toks: seq<string>)
    requires toks != [] && AllWellFormed(toks)
    ensures Notes(toks) == (if IsOpenKeyword(toks[0]) then [] else [NoteOf(toks[0])]) + Notes(toks[1..])
  {
  }

  // ---- The first error ends the parse ---------------------------------------

  /** Parsing a token list in two parts: the second part continues from the
      pairs of the first, and an error in the first part is the result. */
  lemma {:induction false} ParseTokensConcat(a: seq<string>, b: seq<string>, acc: seq<Pair>, stringNo: nat)
    ensures var ra := ParseTokens(a, acc, stringNo);
      ParseTokens(a + b, acc, stringNo) == if ra.Ok? then ParseTokens(b, ra.value, stringNo) else ra
    decreases |a|
  {
    if a == [] {
      assert a + b == b;
    } else {
      assert (a + b)[0] == a[0] && (a + b)[1..] == a[1..] + b;
      match ParseToken(a[0], Frets(acc), stringNo)
      case Skip => ParseTokensConcat(a[1..], b, acc, stringNo);
      case Note(p) => ParseTokensConcat(a[1..], b, acc + [p], stringNo);
      case Reject(e) =>
    }
  }

  /** When the tokens before position `i` parse and token `i` is rejected
      given their frets, token `i`'s error is the result, whatever follows. */
  lemma RejectEndsParse(toks: seq<string>, acc: seq<Pair>, stringNo: nat, i: nat, ps: seq<Pair>, e: ParseError)
    requires i < |toks| && ParseTokens(toks[..i], acc, stringNo) == Ok(ps)
    requires ParseToken(toks[i], Frets(ps), stringNo) == Reject(e)
    ensures ParseTokens(toks, acc, stringNo) == Err(e)
  {
    assert toks == toks[..i] + toks[i..];
    ParseTokensConcat(toks[..i], toks[i..], acc, stringNo);
    assert toks[i..][0] == toks[i];
  }

  /** A failed token list fails at its first rejected token: the tokens
      before it parse, and the error is the one that token draws given
      their frets. */
  lemma {:induction false} FirstRejection(toks: seq<string>, acc: seq<Pair>, stringNo: nat) returns (i: nat)
    requires ParseTokens(toks, acc, stringNo).Err?
    ensures i < |toks| && ParseTokens(toks[..i], acc, stringNo).Ok?
    ensures ParseToken(toks[i], Frets(ParseTokens(toks[..i], acc, stringNo).value), stringNo)
      == Reject(ParseTokens(toks, acc, stringNo).error)
    decreases |toks|
  {
    assert toks[..0] == [];
    match ParseToken(toks[0], Frets(acc), stringNo)
    case Reject(e) =>
      i := 0;
    case Skip =>
      var j := FirstRejection(toks[1..], acc, stringNo);
      i := j + 1;
      assert toks[..i][0] == toks[0] && toks[..i][1..] == toks[1..][..j] && toks[1..][j] == toks[i];
    case Note(p) =>
      var j := FirstRejection(toks[1..], acc + [p], stringNo);
      i := j + 1;
      assert toks[..i][0] == toks[0] && toks[..i][1..] == toks[1..][..j] && toks[1..][j] == toks[i];
  }

  /** A row's tokens parse exactly when its text is valid. */
  lemma RowParses(text: string, stringNo: nat)
    ensures ParseTokens(Tokens(text), [], stringNo).Ok? <==> TextValid(text)
  {
    ParseTokensMatchesNotes(Tokens(text), [], stringNo);
    if AllWellFormed(Tokens(text)) {
      assert [] + Notes(Tokens(text)) == Notes(Tokens(text));
    }
  }

  /** Failed rows fail at the first row whose tokens do not parse: the rows
      before it parse, the error names that row, and it is that row's own. */
  lemma ParseStringsFirstError(ins: seq<StringInput>, stringNo: nat) returns (j: nat)
    requires ParseStrings(ins, stringNo).Err?
    ensures j < |ins| && ParseStrings(ins[..j], stringNo).Ok?
    ensures var e := ParseStrings(ins, stringNo).error; e.stringNo == stringNo + j && RowFails(ins[j], e)
  {
    j := ErrorRow(ins, stringNo);
    RowsBeforeErrorParse(ins, stringNo);
  }

  /** The row a failed parse names is the row whose tokens drew the error. */
  lemma {:induction false} ErrorRow(ins: seq<StringInput>, stringNo: nat) returns (j: nat)
    requires ParseStrings(ins, stringNo).Err?
    ensures var e := ParseStrings(ins, stringNo).error;
      j < |ins| && e.stringNo == stringNo + j && RowFails(ins[j], e)
    decreases |ins|, 1
  {
    ParseStringsStep(ins, stringNo);
    if ParseTokens(Tokens(ins[0].text), [], stringNo).Err? {
      j := 0;
      FirstRowFails(ins, stringNo);
    } else {
      j := ErrorRowAfterFirst(ins, stringNo, ParseStrings(ins, stringNo).error);
    }
  }

  /** A failing first row is the failing row of the whole. */
  lemma FirstRowFails(ins: seq<StringInput>, stringNo: nat)
    requires ins != [] && ParseStrings(ins, stringNo).Err?
    requires var first := ParseTokens(Tokens(ins[0].text), [], stringNo);
      first.Err? && first.error == ParseStrings(ins, stringNo).error && first.error.stringNo == stringNo
    ensures var e := ParseStrings(ins, stringNo).error; e.stringNo == stringNo && RowFails(ins[0], e)
  {
  }

  /** When the rows after the first fail with `e`, the failing row they name,
      one further on, drew `e`. */
  lemma {:induction false} ErrorRowAfterFirst(ins: seq<StringInput>, stringNo: nat, e: ParseError) returns (j: nat)
    requires ins != [] && ParseStrings(ins[1..], stringNo + 1).Err? && ParseStrings(ins[1..], stringNo + 1).error == e
    ensures j < |ins| && e.stringNo == stringNo + j && RowFails(ins[j], e)
    decreases |ins|, 0
  {
    var k := ErrorRow(ins[1..], stringNo + 1);
    j := k + 1;
    assert ins[1..][k] == ins[j];
  }

  /** The rows before the one a failed parse names all parse. */
  lemma {:induction false} RowsBeforeErrorParse(ins: seq<StringInput>, stringNo: nat)
    requires ParseStrings(ins, stringNo).Err?
    ensures var j := ParseStrings(ins, stringNo).error.stringNo - stringNo;
      0 <= j < |ins| && ParseStrings(ins[..j], stringNo).Ok?
    decreases |ins|, 1
  {
    ParseStringsStep(ins, stringNo);
    if ParseTokens(Tokens(ins[0].text), [], stringNo).Err? {
      assert ins[..0] == [];
    } else {
      RowsBeforeAfterFirst(ins, stringNo, ParseStrings(ins, stringNo).error);
    }
  }

  /** When the first row parses and the rows after it fail with `e`, the rows
      before the one `e` names all parse. */
  lemma {:induction false} RowsBeforeAfterFirst(ins: seq<StringInput>, stringNo: nat, e: ParseError)
    requires ins != [] && ParseTokens(Tokens(ins[0].text), [], stringNo).Ok?
    requires ParseStrings(ins[1..], stringNo + 1).Err? && ParseStrings(ins[1..], stringNo + 1).error == e
    ensures 0 <= e.stringNo - stringNo < |ins| && ParseStrings(ins[..e.stringNo - stringNo], stringNo).Ok?
    decreases |ins|, 0
  {
    RowsBeforeErrorParse(ins[1..], stringNo + 1);
    PrefixParses(ins, stringNo, e);
  }

  /** The row's tokens draw error `e`, under the string number `e` names. */
  predicate RowFails(row: StringInput, e: ParseError)
  {
    !e.ExcessiveSpan? &&
    var r := ParseTokens(Tokens(row.text), [], e.stringNo); r.Err? && r.error == e
  }

  /** One step of the row loop: the first row's error, or else the error of
      the rows after it. */
  lemma ParseStringsStep(ins: seq<StringInput>, stringNo: nat)
    requires ParseStrings(ins, stringNo).Err?
    ensures ins != []
    ensures var first := ParseTokens(Tokens(ins[0].text), [], stringNo);
      first.Err? ==> first.error == ParseStrings(ins, stringNo).error && first.error.stringNo == stringNo
    ensures var first := ParseTokens(Tokens(ins[0].text), [], stringNo);
      first.Ok? ==> (ParseStrings(ins[1..], stringNo + 1).Err? &&
        ParseStrings(ins[1..], stringNo + 1).error == ParseStrings(ins, stringNo).error)
  {
  }

  /** A parsing first row followed by a parsing prefix of the rest is a
      parsing prefix one longer. */
  lemma PrefixParses(ins: seq<StringInput>, stringNo: nat, e: ParseError)
    requires ins != [] && ParseTokens(Tokens(ins[0].text), [], stringNo).Ok?
    requires !e.ExcessiveSpan? && stringNo + 1 <= e.stringNo < stringNo + |ins|
    requires ParseStrings(ins[1..][..e.stringNo - (stringNo + 1)], stringNo + 1).Ok?
    ensures ParseStrings(ins[..e.stringNo - stringNo], stringNo).Ok?
  {
    var pre := ins[..e.stringNo - stringNo];
    assert pre[0] == ins[0] && pre[1..] == ins[1..][..e.stringNo - (stringNo + 1)];
  }

  /** A failed parse names the error's cause: a span error exactly when every
      row is valid; otherwise the first invalid row, whose error it is. */
  lemma ParseFretboardFirstError(title: string, ins: seq<StringInput>)
    requires ParseFretboard(title, ins).Err?
    ensures ParseFretboard(title, ins).error.ExcessiveSpan? <==> forall i :: 0 <= i < |ins| ==> TextValid(ins[i].text)
    ensures var e := ParseFretboard(title, ins).error;
      !e.ExcessiveSpan? ==>
        && 1 <= e.stringNo <= |ins|
        && (forall i :: 0 <= i < e.stringNo - 1 ==> TextValid(ins[i].text))
        && !TextValid(ins[e.stringNo - 1].text)
        && RowFails(ins[e.stringNo - 1], e)
  {
    ParseStringsMatches(ins, 1);
    if ParseStrings(ins, 1).Err? {
      var j := ParseStringsFirstError(ins, 1);
      ParseStringsMatches(ins[..j], 1);
      forall i | 0 <= i < j
        ensures TextValid(ins[i].text)
      {
        assert ins[..j][i] == ins[i];
      }
      RowParses(ins[j].text, 1 + j);
    }
  }
}

=== FILE: results.dfy ===
/** Value-or-error wrappers shared by the parser and the validation cache. */
module Results {

  /** An optional value: the validation cache either holds a result or is empty. */
  datatype Option<+T> = None | Some(value: T)

  /** The outcome of an operation that can fail with a structured error. */
  datatype Result<+T, +E> = Ok(value: T) | Err(error: E)
}

=== FILE: seqmath.dfy ===
/** Small facts about sequences of numbers used by both the parser and the layout. */
module SeqMath {

  /** The smallest element of a non-empty sequence. */
  function Min(s: seq<int>): (m: int)
    requires |s| > 0
    ensures m in s
    ensures forall i :: 0 <= i < |s| ==> m <= s[i]
  {
    if |s| == 1 then s[0]
    else
      var rest := Min(s[1..]);
      if s[0] <= rest then s[0] else rest
  }

  /** The largest element of a non-empty sequence. */
  function Max(s: seq<int>): (m: int)
    requires |s| > 0
    ensures m in s
    ensures forall i :: 0 <= i < |s| ==> s[i] <= m
  {
    if |s| == 1 then s[0]
    else
      var rest := Max(s[1..]);
      if s[0] >= rest then s[0] else rest
  }

  /** No two positions of `s` hold further apart values than `bound`. */
  ghost predicate SpreadAtMost(s: seq<int>, bound: int)
  {
    forall i, j :: 0 <= i < |s| && 0 <= j < |s| ==> s[i] - s[j] <= bound
  }

  /** Comparing only the extremes decides the pairwise spread. */
  lemma SpreadIsMaxMinusMin(s: seq<int>, bound: int)
    ensures |s| > 0 ==> (Max(s) - Min(s) <= bound <==> SpreadAtMost(s, bound))
  {
    if s == [] {
      return;
    }
    var hi :| 0 <= hi < |s| && s[hi] == Max(s);
    var lo :| 0 <= lo < |s| && s[lo] == Min(s);
    if SpreadAtMost(s, bound) {
      assert s[hi] - s[lo] <= bound;
    }
  }

  /** All elements are pairwise different. */
  predicate Distinct(s: seq<int>)
  {
    forall i, j :: 0 <= i < j < |s| ==> s[i] != s[j]
  }

  /** The left-to-right sum, in the order a running total accumulates it. */
  function Sum(s: seq<real>): real
  {
    if s == [] then 0.0 else Sum(s[..|s| - 1]) + s[|s| - 1]
  }

  /** Extending a prefix by one element adds that element to its sum. */
  lemma SumPrefixStep(s: seq<real>, i: int)
    requires 0 <= i < |s|
    ensures Sum(s[..i + 1]) == Sum(s[..i]) + s[i]
  {
    assert s[..i + 1][..i] == s[..i];
  }

  predicate AllPositive(s: seq<real>)
  {
    forall i :: 0 <= i < |s| ==> s[i] > 0.0
  }

  /** With positive elements, a longer prefix has a strictly larger sum. */
  lemma {:induction false} PrefixSumIncreasing(s: seq<real>, i: int, j: int)
    requires AllPositive(s)
    requires 0 <= i < j <= |s|
    ensures Sum(s[..i]) < Sum(s[..j])
    decreases j - i
  {
    SumPrefixStep(s, j - 1);
    if i < j - 1 {
      PrefixSumIncreasing(s, i, j - 1);
    }
  }

  /** The sequence read back to front. */
  function Reverse<T>(s: seq<T>): (r: seq<T>)
    ensures |r| == |s|
    ensures forall i :: 0 <= i < |s| ==> r[i] == s[|s| - 1 - i]
  {
    if s == [] then [] else Reverse(s[1..]) + [s[0]]
  }

  /** The concatenation of the pieces, in order. */
  function Flatten<T>(ss: seq<seq<T>>): seq<T>
  {
    if ss == [] then [] else ss[0] + Flatten(ss[1..])
  }

  /** A slice lying wholly in the second part of a concatenation. */
  lemma SliceOfSuffix<T>(a: seq<T>, b: seq<T>, i: int, j: int)
    requires |a| <= i <= j <= |a| + |b|
    ensures (a + b)[i..j] == b[i - |a| .. j - |a|]
  {
  }

  /** Each of six concatenated pieces sits at its offset in the whole. */
  lemma SixParts<T>(a: seq<T>, b: seq<T>, c: seq<T>, d: seq<T>, e: seq<T>, f: seq<T>)
    ensures var s, i1 := a + b + c + d + e + f, |a|;
      var i2, i3 := i1 + |b|, i1 + |b| + |c|;
      var i4, i5 := i3 + |d|, i3 + |d| + |e|;
      && |s| == i5 + |f|
      && s[..i1] == a && s[i1..i2] == b && s[i2..i3] == c
      && s[i3..i4] == d && s[i4..i5] == e && s[i5..] == f
  {
  }

  /** An element lying in the second part of a concatenation. */
  lemma IndexOfSuffix<T>(a: seq<T>, b: seq<T>, k: int)
    requires 0 <= k < |b|
    ensures (a + b)[|a| + k] == b[k]
  {
  }

  /** Pieces all of length `m` flatten to `m` elements per piece. */
  lemma {:induction false} FlattenUniformLength<T>(ss: seq<seq<T>>, m: nat)
    requires forall i :: 0 <= i < |ss| ==> |ss[i]| == m
    ensures |Flatten(ss)| == m * |ss|
    decreases |ss|
  {
    if ss != [] {
      FlattenUniformLength(ss[1..], m);
    }
  }
}

=== FILE: text.dfy ===
/** Character-level helpers: whitespace tokenising, comma splitting, truncation,
    ASCII case folding and decimal digits. */
module Text {

  /** The whitespace characters recognised when trimming and splitting. */
  predicate IsSpace(c: char)
  {
    c == ' ' || c == '\t' || c == '\n' || c == '\r'
  }

  /** Empty or whitespace only: what `trim()` turns into the empty string. */
  predicate IsBlank(s: string)
  {
    forall i :: 0 <= i < |s| ==> IsSpace(s[i])
  }

  /** `s.slice(0, n)`: the first `n` characters, or all of `s` if it is shorter. */
  function Truncate(s: string, n: nat): (r: string)
    ensures r <= s
    ensures |r| == if |s| <= n then |s| else n
  {
    if |s| > n then s[..n] else s
  }

  function LowerAscii(c: char): char
  {
    if 'A' <= c <= 'Z' then (c as int + 32) as char else c
  }

  /** The string with its ASCII capitals folded to lower case. */
  function Lowered(s: string): (r: string)
    ensures |r| == |s|
  {
    seq(|s|, i requires 0 <= i < |s| => LowerAscii(s[i]))
  }

  /** Length of the leading run of non-whitespace characters. */
  function RunLength(s: string): (k: nat)
    ensures k <= |s|
    ensures forall i :: 0 <= i < k ==> !IsSpace(s[i])
    ensures k == |s| || IsSpace(s[k])
  {
    if s == [] || IsSpace(s[0]) then 0 else 1 + RunLength(s[1..])
  }

  /** A token: a non-empty run of non-whitespace characters. */
  predicate IsWord(t: string)
  {
    |t| > 0 && forall i :: 0 <= i < |t| ==> !IsSpace(t[i])
  }

  /** `s.trim().split(/\s+/)` for a string that is not blank: the maximal runs of
      non-whitespace characters, in order. A blank string has no tokens. */
  function Tokens(s: string): (ts: seq<string>)
    ensures forall k :: 0 <= k < |ts| ==> IsWord(ts[k])
    ensures ts == [] <==> IsBlank(s)
    decreases |s|
  {
    if s == [] then []
    else if IsSpace(s[0]) then Tokens(s[1..])
    else
      var k := RunLength(s);
      [s[..k]] + Tokens(s[k..])
  }

  /** Words separated by single spaces. */
  function JoinWords(ts: seq<string>): string
  {
    if ts == [] then ""
    else if |ts| == 1 then ts[0]
    else ts[0] + " " + JoinWords(ts[1..])
  }

  lemma {:induction false} RunLengthOfWord(t: string, rest: string)
    requires IsWord(t)
    requires rest == [] || IsSpace(rest[0])
    ensures RunLength(t + rest) == |t|
    decreases |t|
  {
    if |t| > 1 {
      assert (t + rest)[1..] == t[1..] + rest;
      RunLengthOfWord(t[1..], rest);
    }
  }

  /** Tokenising undoes joining words with single spaces. */
  lemma {:induction false} TokensOfJoinedWords(ts: seq<string>)
    requires forall k :: 0 <= k < |ts| ==> IsWord(ts[k])
    ensures Tokens(JoinWords(ts)) == ts
    decreases |ts|
  {
    if ts == [] {
    } else if |ts| == 1 {
      var t := ts[0];
      RunLengthOfWord(t, []);
      assert t + [] == t;
      assert t[..|t|] == t;
      assert t[|t|..] == [];
    } else {
      var t := ts[0];
      var rest := " " + JoinWords(ts[1..]);
      var s := t + rest;
      assert JoinWords(ts) == s;
      RunLengthOfWord(t, rest);
      assert s[..|t|] == t;
      assert s[|t|..] == rest;
      assert rest[1..] == JoinWords(ts[1..]);
      TokensOfJoinedWords(ts[1..]);
      assert Tokens(rest) == Tokens(rest[1..]);
    }
  }

  /** `s.split(d)`: the pieces between occurrences of `d`; always at least one. */
  function Split(s: string, d: char): (parts: seq<string>)
    ensures |parts| >= 1
    ensures forall k :: 0 <= k < |parts| ==> d !in parts[k]
    ensures |parts| == 1 <==> d !in s
  {
    if s == [] then [""]
    else
      var rest := Split(s[1..], d);
      if s[0] == d then [""] + rest
      else [[s[0]] + rest[0]] + rest[1..]
  }

  /** `parts.join(d)`; joining no parts gives the empty string. */
  function Join(parts: seq<string>, d: char): string
  {
    if parts == [] then ""
    else if |parts| == 1 then parts[0]
    else parts[0] + [d] + Join(parts[1..], d)
  }

  /** Joining the pieces of a split restores the original string. */
  lemma {:induction false} JoinSplit(s: string, d: char)
    ensures Join(Split(s, d), d) == s
    decreases |s|
  {
    if s != [] {
      var rest := Split(s[1..], d);
      JoinSplit(s[1..], d);
      if s[0] == d {
        assert Join([""] + rest, d) == "" + [d] + Join(rest, d);
        assert s == [d] + s[1..];
      } else if |rest| == 1 {
        assert Split(s, d) == [[s[0]] + rest[0]];
        assert s == [s[0]] + s[1..];
      } else {
        var parts := Split(s, d);
        assert parts[1..] == rest[1..];
        assert Join(parts, d) == [s[0]] + rest[0] + [d] + Join(rest[1..], d);
        assert Join(rest, d) == rest[0] + [d] + Join(rest[1..], d);
        assert s == [s[0]] + s[1..];
      }
    }
  }

  lemma {:induction false} SplitWithPrefix(a: string, tail: string, d: char)
    requires d !in a
    ensures Split(a + tail, d) == [a + Split(tail, d)[0]] + Split(tail, d)[1..]
    decreases |a|
  {
    if a != [] {
      var parts := Split(tail, d);
      var s := a + tail;
      assert s[0] == a[0] && s[0] != d;
      assert s[1..] == a[1..] + tail;
      SplitWithPrefix(a[1..], tail, d);
      var rest := Split(s[1..], d);
      assert rest == [a[1..] + parts[0]] + parts[1..];
      assert Split(s, d) == [[a[0]] + rest[0]] + rest[1..];
      assert [a[0]] + (a[1..] + parts[0]) == a + parts[0];
    } else {
      var parts := Split(tail, d);
      assert a + tail == tail;
      assert a + parts[0] == parts[0];
      assert parts == [parts[0]] + parts[1..];
    }
  }

  /** Splitting undoes joining pieces that do not contain the separator. */
  lemma {:induction false} SplitJoin(parts: seq<string>, d: char)
    requires |parts| >= 1
    requires forall k :: 0 <= k < |parts| ==> d !in parts[k]
    ensures Split(Join(parts, d), d) == parts
    decreases |parts|
  {
    if |parts| == 1 {
      SplitWithPrefix(parts[0], [], d);
      assert parts[0] + [] == parts[0];
      assert parts[0] + "" == parts[0];
    } else {
      var tail := [d] + Join(parts[1..], d);
      assert Join(parts, d) == parts[0] + tail;
      SplitWithPrefix(parts[0], tail, d);
      assert tail[1..] == Join(parts[1..], d);
      SplitJoin(parts[1..], d);
      assert Split(tail, d) == [""] + parts[1..];
      assert parts[0] + "" == parts[0];
    }
  }

  predicate IsDigit(c: char)
  {
    '0' <= c <= '9'
  }

  predicate AllDigits(s: string)
  {
    forall i :: 0 <= i < |s| ==> IsDigit(s[i])
  }

  /** `parseInt(s, 10)` for a string of decimal digits. */
  function DigitsValue(s: string): nat
    requires AllDigits(s)
  {
    if s == [] then 0
    else 10 * DigitsValue(s[..|s| - 1]) + (s[|s| - 1] as int - '0' as int)
  }

  function DigitChar(d: int): (c: char)
    requires 0 <= d < 10
    ensures IsDigit(c) && c as int - '0' as int == d
  {
    ('0' as int + d) as char
  }

  /** Decimal digits in canonical form: at least one, and no leading zero
      unless the number is zero itself. */
  predicate Canonical(s: string)
  {
    |s| >= 1 && AllDigits(s) && (s[0] == '0' ==> s == "0")
  }

  /** `n.toString()` for a natural number: canonical digits that read back
      as `n`. */
  function NatToString(n: nat): (s: string)
    ensures Canonical(s)
    ensures DigitsValue(s) == n
  {
    if n < 10 then [DigitChar(n)]
    else
      var s := NatToString(n / 10) + [DigitChar(n % 10)];
      assert s[..|s| - 1] == NatToString(n / 10);
      assert s[0] == NatToString(n / 10)[0];
      s
  }

  /** Canonical digits name exactly one number: `NatToString` is the only
      canonical spelling of its value. */
  lemma {:induction false} CanonicalIsNatToString(s: string)
    requires Canonical(s)
    ensures s == NatToString(DigitsValue(s))
    decreases |s|
  {
    var n := DigitsValue(s);
    if |s| > 1 {
      var p := s[..|s| - 1];
      assert p[0] == s[0];
      assert Canonical(p);
      CanonicalIsNatToString(p);
      var d := s[|s| - 1] as int - '0' as int;
      assert n / 10 == DigitsValue(p) && n % 10 == d;
      assert s == p + [DigitChar(d)];
    }
  }

  /** `i.toString()` for any integer: a minus sign before the canonical
      digits of a negative number. */
  function IntToString(i: int): (s: string)
    ensures i >= 0 ==> Canonical(s) && DigitsValue(s) == i
    ensures i < 0 ==> |s| >= 2 && s[0] == '-' && Canonical(s[1..]) && s[1] != '0' && DigitsValue(s[1..]) == -i
  {
    if i < 0 then
      var s := "-" + NatToString(-i);
      assert s[1..] == NatToString(-i);
      s
    else NatToString(i)
  }
}

=== FILE: validation.dfy ===
/** The last-valid-result cache kept per fretboard block by the validation
    hook (parseFretboard.js:85-105). Each edit re-parses the block; the
    outcome either warns, is skipped as unchanged, or is logged and stored.
    Results are compared structurally, as their JSON serialisations are. */
module Validation {
  import opened Results
  import opened Parse

  /** What one validation run reports. */
  datatype Report =
    | Warned(error: ParseError)   // a parse error: the stored result is dropped
    | Unchanged                   // same result as the stored one: nothing logged
    | Logged(fretboard: Fretboard) // a new result: logged and stored

  /** The cache after one run, and what the run reported. */
  datatype Step = Step(stored: Option<Fretboard>, report: Report)

  /** The cache entry a parse outcome leaves behind. */
  function Cached(current: Result<Fretboard, ParseError>): Option<Fretboard>
  {
    match current
    case Ok(fb) => Some(fb)
    case Err(_) => None
  }

  /** One validation run against the stored result. */
  function OnInput(stored: Option<Fretboard>, current: Result<Fretboard, ParseError>): (s: Step)
    ensures s.stored == Cached(current)
    ensures s.report.Warned? <==> current.Err?
    ensures s.report.Warned? ==> s.report.error == current.error
    ensures s.report.Unchanged? <==> current.Ok? && stored == Some(current.value)
    ensures s.report.Logged? ==> current == Ok(s.report.fretboard) && stored != Some(s.report.fretboard)
  {
    match current
    case Err(e) => Step(None, Warned(e))
    case Ok(fb) =>
      if stored.Some? && stored.value == fb then Step(stored, Unchanged)
      else Step(Some(fb), Logged(fb))
  }

  /** The cache and the reports after a run of edits, one parse outcome each. */
  datatype Trace = Trace(stored: Option<Fretboard>, reports: seq<Report>)

  /** A run of edits: one report per edit, and an edit warns exactly when it
      fails to parse, with that edit's own error. */
  function Run(stored: Option<Fretboard>, outcomes: seq<Result<Fretboard, ParseError>>): (t: Trace)
    ensures |t.reports| == |outcomes|
    ensures forall i :: 0 <= i < |outcomes| ==> (t.reports[i].Warned? <==> outcomes[i].Err?)
    ensures forall i :: 0 <= i < |outcomes| && t.reports[i].Warned? ==> t.reports[i].error == outcomes[i].error
    decreases |outcomes|
  {
    if outcomes == [] then Trace(stored, [])
    else
      var s := OnInput(stored, outcomes[0]);
      var rest := Run(s.stored, outcomes[1..]);
      assert forall i :: 1 <= i < |outcomes| ==> outcomes[i] == outcomes[1..][i - 1];
      Trace(rest.stored, [s.report] + rest.reports)
  }

  /** The cache entry in force just before edit `i` of a run. */
  function Before(stored: Option<Fretboard>, outcomes: seq<Result<Fretboard, ParseError>>, i: nat): Option<Fretboard>
    requires i < |outcomes|
  {
    if i == 0 then stored else Cached(outcomes[i - 1])
  }

  /** After a run the cache holds the last outcome's result, and an edit is
      skipped exactly when it parses to the same result as the edit before
      it: the cache always mirrors the latest outcome. */
  lemma {:induction false} RunMirrorsLatest(stored: Option<Fretboard>, outcomes: seq<Result<Fretboard, ParseError>>)
    ensures Run(stored, outcomes).stored == (if outcomes == [] then stored else Cached(outcomes[|outcomes| - 1]))
    ensures forall i :: 0 <= i < |outcomes| ==>
      (Run(stored, outcomes).reports[i].Unchanged? <==>
        outcomes[i].Ok? && Before(stored, outcomes, i) == Some(outcomes[i].value))
    ensures forall i :: 0 <= i < |outcomes| ==>
      (Run(stored, outcomes).reports[i].Logged? <==>
        outcomes[i].Ok? && Before(stored, outcomes, i) != Some(outcomes[i].value))
    decreases |outcomes|
  {
    if outcomes != [] {
      var s := OnInput(stored, outcomes[0]);
      var tail := outcomes[1..];
      RunMirrorsLatest(s.stored, tail);
      var t := Run(stored, outcomes);
      assert t.reports == [s.report] + Run(s.stored, tail).reports;
      if tail != [] {
        assert tail[|tail| - 1] == outcomes[|outcomes| - 1];
      }
      forall i | 1 <= i < |outcomes|
        ensures t.reports[i] == Run(s.stored, tail).reports[i - 1]
        ensures Before(stored, outcomes, i) == Before(s.stored, tail, i - 1)
        ensures outcomes[i] == tail[i - 1]
      {
      }
    }
  }

  /** Re-running validation on an unchanged block reports nothing new and
      leaves the cache as it was. */
  lemma {:induction false} RepeatIsQuiet(stored: Option<Fretboard>, current: Result<Fretboard, ParseError>, k: nat)
    requires k >= 1
    ensures var outcomes := seq(k + 1, _ => current);
      && Run(stored, outcomes).stored == Cached(current)
      && forall i :: 1 <= i <= k ==> !Run(stored, outcomes).reports[i].Logged?
  {
    var outcomes := seq(k + 1, _ => current);
    RunMirrorsLatest(stored, outcomes);
    forall i | 1 <= i <= k
      ensures !Run(stored, outcomes).reports[i].Logged?
    {
      assert outcomes[i - 1] == current && outcomes[i] == current;
    }
  }
}
